=== FILE: README.md ===
# File extension blocking policy — Dafny model

This project models the file-extension blocking service of a small file-upload
application. The service's behaviour is pinned down by its unit and integration tests, and the
model follows those. It has five parts:

- **Names** (`extension_names.dfy`, module `ExtensionNames`). The extension normalizer
  trims whitespace, drops one leading dot and lower-cases ASCII letters. The name is split at
  its dots. The candidate extensions of a file name are the normal forms of every segment after
  the first, dropping empty and all-digit ones. The recorded extension of a stored file is a
  choice of this model: the normalized last segment (see the points left open below).
- **Policy** (`extension_service.dfy`, module `ExtensionService`). There are fixed extensions
  with a block flag, and a capped list of custom extensions that are always blocked. For one
  token, a fixed entry's flag wins; otherwise a custom entry blocks it; otherwise it is allowed.
  A caller-supplied map of fixed flags is authoritative. A file name is blocked when any of its
  candidates is. Three administrative mutations return `Result`s:
  - toggle a fixed flag;
  - add a custom extension;
  - delete a custom extension.

  Blocking a fixed extension and adding a custom one both trigger the cascading deletion of
  stored files.
- **Storage** (`file_storage_service.dfy`, module `FileStorageService`). The uploaded-file
  records support:
  - storing an upload, with the empty and over-size rejections;
  - lookup by id;
  - the deletion-exception flag;
  - the cascade that removes every ACTIVE, unprotected file of an extension;
  - the listing queries by extension and by status.
- **Validation** (`file_validation_service.dfy`, module `FileValidationService`). Structural
  failures are empty content, size over 100 MiB, and a null or empty name.
  Otherwise the verdict is `Allowed`, or `Blocked` with a reason naming the leftmost blocked
  candidate. `file_upload_flow.dfy` (module `FileUploadFlow`) ties validation and storage
  together. Its invariant is that no unprotected ACTIVE file carries a blocked extension.
  Uploading, toggling, adding, deleting and protecting a file preserve it. Clearing a deletion
  exception can break it (`UnprotectCanBreakPolicy`): a protected file of a blocked extension
  stays in the store and becomes unprotected. The invariant looks only at the recorded extension.
  A file name can be blocked through an earlier segment and still satisfy it. For example,
  `"doc.exe.txt"` uploaded while `exe` is allowed is recorded as `txt`. It stays ACTIVE and
  unprotected after `exe` is blocked, because the cascade removes only files recorded as `exe`.
- **Scenarios** (`scenarios.dfy`, `validation_cases.dfy`). These restate the concrete test
  sequences on the seeded policy and show that the model gives the asserted outcomes. The seed
  has seven fixed extensions, with only `exe` blocked.

`wrappers.dfy` holds `Option`/`Result`. `constants.dfy` holds the size limit of
100 × 1024 × 1024 bytes and the cap of 200 custom extensions.

Points the tests leave open, and the choice made here:
- Structural failures are checked in the order empty content, size, name. Each test case has a
  single defect, so the tests do not fix an order.
- When several candidates are blocked, the leftmost one in candidate order is reported.
  Candidate order follows the order of the segments in the file name (`CandidatesInOrder`).
- Adding a custom extension checks, in order: duplicate (`AlreadyExists`), equal to a fixed
  extension (`Conflict`), cap reached (`LimitExceeded`).
- The recorded extension is the normalized last segment for names with several dots. It is
  `""` for a name without a dot (`StoredExtension`) and for a name ending in a dot such as
  `"a.exe."` (`StoredExtensionTrailingDot`). The tests only show single-dot names: `"program.exe"`
  recorded as `exe` and `"document1.txt"` recorded as `txt`. The cascade and the store invariant
  both key on this choice.
- A file of exactly 100 MiB is accepted; only larger ones are refused.
- Setting a fixed flag to `false` has no side effect. Setting it to `true` runs the cascade,
  even when the flag was already `true`.
- The cascade is a hard delete: the record leaves the store, which matches the integration
  test finding no `exe` file afterwards.
- Normalization covers more than the tests show. The tests only show lower-casing
  (`TestDataFixture.java`). The model also trims white space and drops one leading dot, so that
  `"EXE"`, `".exe"` and `" exe "` all name the same extension. One pass drops only one dot, so
  normalizing is not idempotent on inputs such as `"..exe"` (see `NormalizeTwoDots`).

Paths in the table below are relative to the repository root.

## Model

| member | source | states |
|---|---|---|
| ExtensionNames.LowerIsLowerCase | src/test/java/com/assignment/fileextension/fixtures/TestDataFixture.java:84-90 | lower-casing keeps the length, lowers each character independently and leaves no upper-case letter |
| ExtensionNames.LowerOfLowerCase | src/test/java/com/assignment/fileextension/fixtures/TestDataFixture.java:84-90 | lower-casing a token that is already lower-case returns it unchanged |
| ExtensionNames.Normalize | src/test/java/com/assignment/fileextension/fixtures/TestDataFixture.java:84-90 | the canonical form of a token; NormalizeIsLowerCase, NormalizeEndsClean, NormalizeExamples and NormalizeIdempotent state its behaviour |
| ExtensionNames.NormalizeIsLowerCase | src/test/java/com/assignment/fileextension/fixtures/TestDataFixture.java:84-90 | every normalized token is lower-case and no longer than the raw token |
| ExtensionNames.NormalizeEndsClean | src/test/java/com/assignment/fileextension/fixtures/TestDataFixture.java:84-90 | a normalized token never ends in whitespace |
| ExtensionNames.NormalizeExamples | src/test/java/com/assignment/fileextension/fixtures/TestDataFixture.java:84-90 | "EXE", ".exe" and " exe " all normalize to "exe"; a blank token normalizes to "" |
| ExtensionNames.NormalizeDropsDot | src/test/java/com/assignment/fileextension/fixtures/TestDataFixture.java:84-90 | a dot in front of a plain token is dropped and nothing else changes |
| ExtensionNames.NormalizePlainToken | src/test/java/com/assignment/fileextension/fixtures/TestDataFixture.java:84-90 | a plain lower-case token (letters and digits) is already in normal form |
| ExtensionNames.NormalizeIdempotent | src/test/java/com/assignment/fileextension/fixtures/TestDataFixture.java:84-90 | normalizing twice gives the same token as normalizing once, whenever the normal form starts with neither a dot nor whitespace |
| ExtensionNames.NormalizeTwoDots | src/test/java/com/assignment/fileextension/fixtures/TestDataFixture.java:84-90 | "..exe" normalizes to ".exe" and then to "exe", so a single pass is not idempotent on every input |
| ExtensionNames.Split | src/test/java/com/assignment/fileextension/unit/service/FileValidationServiceTest.java:113-134 | splitting at dots yields at least one segment, and no segment contains a dot |
| ExtensionNames.JoinSplit | src/test/java/com/assignment/fileextension/unit/service/FileValidationServiceTest.java:113-134 | joining the segments of a name with dots gives back the name |
| ExtensionNames.SplitJoin | src/test/java/com/assignment/fileextension/unit/service/FileValidationServiceTest.java:113-134 | splitting dot-free segments joined with dots gives back the segments |
| ExtensionNames.SplitNoDot | src/test/java/com/assignment/fileextension/unit/service/FileValidationServiceTest.java:136-146 | a name without a dot is a single segment |
| ExtensionNames.Candidates | src/test/java/com/assignment/fileextension/unit/service/FileValidationServiceTest.java:148-161 | a token is a candidate iff it is non-empty, not all digits, and the normal form of one of the segments |
| ExtensionNames.CandidateExtensions | src/test/java/com/assignment/fileextension/unit/service/FileValidationServiceTest.java:113-161 | a null name and a dot-free name have no candidates; otherwise a token is a candidate iff it is a non-empty, not-all-digit normal form of a segment after the first |
| ExtensionNames.CandidateSource | src/test/java/com/assignment/fileextension/unit/service/FileValidationServiceTest.java:113-134 | every candidate is the normal form of some segment |
| ExtensionNames.CandidatesInOrder | src/test/java/com/assignment/fileextension/unit/service/FileValidationServiceTest.java:113-134 | of two candidates, the earlier one comes from an earlier segment, so candidate order is file-name order |
| ExtensionNames.CandidatesKeepWord | src/test/java/com/assignment/fileextension/unit/service/FileValidationServiceTest.java:113-134 | a segment starting with a letter stays in the candidate list, in its place |
| ExtensionNames.CandidatesDropNumber | src/test/java/com/assignment/fileextension/unit/service/FileValidationServiceTest.java:148-161 | an all-digit segment such as "2024" is skipped |
| ExtensionNames.PlainNameCandidates | src/test/java/com/assignment/fileextension/unit/service/FileValidationServiceTest.java:113-134 | for a name of plain segments, the candidates are exactly its non-numeric segments after the first |
| ExtensionNames.StoredExtension | src/test/java/com/assignment/fileextension/integration/FileExtensionIntegrationTest.java:131-138 | a name without a dot is recorded with the empty extension; this is a choice, since the tests only record single-dot names such as "program.exe" as "exe" |
| ExtensionNames.StoredExtensionTrailingDot | src/test/java/com/assignment/fileextension/integration/FileExtensionIntegrationTest.java:131-138 | a name ending in a dot is recorded with the empty extension; this is a choice the tests leave open |
| ExtensionNames.StoredExtensionIsCandidate | src/test/java/com/assignment/fileextension/integration/FileExtensionIntegrationTest.java:204-209 | a recorded extension that could be blocked is also one of the name's candidates, so the upload check has looked at it |
| ExtensionNames.StoredExtensionPlain | src/test/java/com/assignment/fileextension/integration/FileExtensionIntegrationTest.java:204-209 | for a name of plain segments, the recorded extension is the last segment |
| FileStorageService.FindById | src/test/java/com/assignment/fileextension/unit/service/FileStorageServiceTest.java:98-132 | lookup returns nothing iff no record has the id; a returned record is stored and has that id |
| FileStorageService.FindByIdFinds | src/test/java/com/assignment/fileextension/unit/service/FileStorageServiceTest.java:98-116 | when ids are distinct, looking up a stored record's id returns exactly that record |
| FileStorageService.StoreFile | src/test/java/com/assignment/fileextension/unit/service/FileStorageServiceTest.java:70-96 | an empty file fails with EmptyFile and an over-size one with FileTooLarge, and nothing is saved; otherwise one ACTIVE, unprotected record is appended, carrying the name, size, recorded extension and a fresh id |
| FileStorageService.StoreThenFind | src/test/java/com/assignment/fileextension/unit/service/FileStorageServiceTest.java:98-116 | a stored record can be found by the id it was given |
| FileStorageService.SetDeletionException | src/test/java/com/assignment/fileextension/unit/service/FileStorageServiceTest.java:173-213 | an unknown id fails with FileNotFound and nothing changes; otherwise the matching record is replaced by the same record with the new flag and every other record is unchanged |
| FileStorageService.ProtectThenFind | src/test/java/com/assignment/fileextension/unit/service/FileStorageServiceTest.java:173-195 | after setting the flag, looking up the id finds the same record with the new flag |
| FileStorageService.DeleteFilesByExtension | src/test/java/com/assignment/fileextension/unit/service/FileStorageServiceTest.java:134-171 | a record survives the cascade iff it is not an ACTIVE, unprotected file of the extension; if there is no such file nothing changes; ids stay distinct |
| FileStorageService.DeleteByExtension | src/test/java/com/assignment/fileextension/unit/service/FileStorageServiceTest.java:134-155 | the cascade on the store keeps exactly the surviving records and keeps the store invariant |
| FileStorageService.CascadeLeavesNoDoomed | src/test/java/com/assignment/fileextension/unit/service/FileStorageServiceTest.java:134-155 | after the cascade no ACTIVE, unprotected file of the extension remains |
| FileStorageService.CascadeIdempotent | src/test/java/com/assignment/fileextension/unit/service/FileStorageServiceTest.java:157-171 | running the cascade again removes nothing more |
| FileStorageService.FilesOfExtension | src/test/java/com/assignment/fileextension/unit/service/FileStorageServiceTest.java:238-260 | the listing by extension holds exactly the stored records of that extension |
| FileStorageService.FilesWithStatus | src/test/java/com/assignment/fileextension/unit/service/FileStorageServiceTest.java:215-237 | the listing by status holds exactly the stored records in that status |
| FileStorageService.CascadeEmptiesListing | src/test/java/com/assignment/fileextension/integration/FileExtensionIntegrationTest.java:140-148 | if every record of the extension is ACTIVE and unprotected, the listing of that extension is empty after the cascade |
| ExtensionService.SeedIsValid | src/test/java/com/assignment/fileextension/fixtures/TestDataFixture.java:107-117 | the seed has seven fixed extensions, only "exe" is flagged blocked, and the policy invariants hold |
| ExtensionService.SeedFixedExe | src/test/java/com/assignment/fileextension/fixtures/TestDataFixture.java:107-117 | "exe" is a fixed extension seeded as blocked |
| ExtensionService.SeedFixedShort | src/test/java/com/assignment/fileextension/fixtures/TestDataFixture.java:107-117 | no token longer than three characters is a fixed extension |
| ExtensionService.TokenBlocked | src/test/java/com/assignment/fileextension/unit/service/ExtensionServiceTest.java:175-212 | the priority rule for one token: a fixed entry's flag wins, else a custom entry blocks, else allowed; pinned by FixedEntryDecides and CustomEntryBlocks |
| ExtensionService.IsExtensionBlocked | src/test/java/com/assignment/fileextension/unit/service/ExtensionServiceTest.java:175-212 | the two-argument check against the stored policy; FixedEntryDecides, CustomEntryBlocks and BlockedIffListed state its behaviour |
| ExtensionService.IsExtensionBlockedWith | src/test/java/com/assignment/fileextension/unit/service/ExtensionServiceTest.java:214-224 | the three-argument check with a supplied fixed map; SuppliedStatesIgnoreStore states that the stored fixed settings make no difference |
| ExtensionService.FixedEntryDecides | src/test/java/com/assignment/fileextension/unit/service/ExtensionServiceTest.java:175-201 | a fixed entry decides its token in both directions, whatever the custom list holds |
| ExtensionService.CustomEntryBlocks | src/test/java/com/assignment/fileextension/unit/service/ExtensionServiceTest.java:203-212 | a custom token without a fixed entry is blocked |
| ExtensionService.BlockedIffListed | src/test/java/com/assignment/fileextension/unit/service/ExtensionServiceTest.java:175-212 | under the policy invariants, the per-token decision agrees with the blocked list in both directions |
| ExtensionService.SuppliedStatesIgnoreStore | src/test/java/com/assignment/fileextension/unit/service/ExtensionServiceTest.java:214-224 | with a supplied fixed-state map the stored fixed settings make no difference; supplying the stored map gives the plain check |
| ExtensionService.FirstBlocked | src/test/java/com/assignment/fileextension/unit/service/FileValidationServiceTest.java:113-134 | it finds nothing iff no candidate is blocked; otherwise it returns the position of a blocked candidate with no blocked candidate before it |
| ExtensionService.IsFileNameBlockedWith | src/test/java/com/assignment/fileextension/unit/service/ExtensionServiceTest.java:214-248 | a null or dot-free name is never blocked; otherwise the name is blocked iff some candidate is blocked under the supplied fixed map |
| ExtensionService.IsFileNameBlocked | src/test/java/com/assignment/fileextension/unit/service/ExtensionServiceTest.java:226-248 | a null or dot-free name is never blocked; otherwise the name is blocked iff some candidate is blocked |
| ExtensionService.EmptyPolicyBlocksNothing | src/test/java/com/assignment/fileextension/unit/service/ExtensionServiceTest.java:226-248 | with no fixed or custom entries no file name is blocked |
| ExtensionService.UpdateFixedExtensionSetting | src/test/java/com/assignment/fileextension/unit/service/ExtensionServiceTest.java:79-101 | an unknown extension fails with NotFound; otherwise the token's decision becomes the new flag and no other token's decision changes; blocking cascades into the store and allowing leaves it alone |
| ExtensionService.ToggleRoundTrip | src/test/java/com/assignment/fileextension/integration/FileExtensionIntegrationTest.java:115-149 | setting a fixed flag and setting it back restores the policy |
| ExtensionService.AddCustomExtension | src/test/java/com/assignment/fileextension/unit/service/ExtensionServiceTest.java:115-152 | it fails with AlreadyExists, then Conflict, then LimitExceeded exactly when the normalized token is already custom, is fixed, or the cap is reached, and succeeds exactly when none of these holds; a success appends the normalized token, blocks it and cascades over its files |
| ExtensionService.AddPreservesValid | src/test/java/com/assignment/fileextension/unit/service/ExtensionServiceTest.java:141-152 | a successful add keeps the invariants, the cap of 200 included, and hands out a fresh id |
| ExtensionService.AddBlocksOnlyItsToken | src/test/java/com/assignment/fileextension/unit/service/ExtensionServiceTest.java:115-128 | after a successful add the blocked tokens are the previous ones plus the new token |
| ExtensionService.UniqueCustomRecord | src/test/java/com/assignment/fileextension/integration/FileExtensionIntegrationTest.java:295-314 | with distinct custom tokens, a listed token has exactly one record and an unlisted one none |
| ExtensionService.DuplicateAddKeepsOneRecord | src/test/java/com/assignment/fileextension/integration/FileExtensionIntegrationTest.java:295-314 | when an add is refused as a duplicate, exactly one record of the token exists |
| ExtensionService.AddCreatesOneRecord | src/test/java/com/assignment/fileextension/integration/FileExtensionIntegrationTest.java:295-314 | after a successful add exactly one record of the token exists |
| ExtensionService.RemoveId | src/test/java/com/assignment/fileextension/unit/service/ExtensionServiceTest.java:154-163 | removal keeps exactly the records with other ids and shrinks the list when the id was present |
| ExtensionService.DeleteCustomExtension | src/test/java/com/assignment/fileextension/unit/service/ExtensionServiceTest.java:154-173 | a missing id fails with NotFound and nothing is removed; otherwise exactly the records with that id go, and the fixed settings, the next custom id and the store are untouched |
| ExtensionService.DeletePreservesValid | src/test/java/com/assignment/fileextension/unit/service/ExtensionServiceTest.java:154-163 | a deletion keeps the policy invariants |
| ExtensionService.AddThenDelete | src/test/java/com/assignment/fileextension/integration/FileExtensionIntegrationTest.java:61-113 | deleting a custom extension right after adding it restores the custom list, while files removed by the cascade stay removed |
| ExtensionService.DeleteUnblocks | src/test/java/com/assignment/fileextension/integration/FileExtensionIntegrationTest.java:102-112 | once a custom record is deleted, its token is allowed again |
| ExtensionService.ProtectedFilesSurvive | src/test/java/com/assignment/fileextension/integration/FileExtensionIntegrationTest.java:211-228 | none of the three mutations removes a file whose deletion exception is set |
| FileValidationService.BlockMessage | src/test/java/com/assignment/fileextension/unit/service/FileValidationServiceTest.java:95-111 | the block reason contains the offending extension |
| FileValidationService.VerdictFor | src/test/java/com/assignment/fileextension/unit/service/FileValidationServiceTest.java:95-134 | the verdict is Allowed iff no candidate is blocked; otherwise it is Blocked with kind BLOCKED_EXTENSION on the leftmost blocked candidate, and the reason names it |
| FileValidationService.ValidateFile | src/test/java/com/assignment/fileextension/unit/service/FileValidationServiceTest.java:46-134 | empty content, over-size and null or empty name each fail exactly under their condition, in that order; otherwise the verdict is Blocked iff the name is blocked, reporting the leftmost blocked candidate |
| FileValidationService.StructuralFailureIgnoresPolicy | src/test/java/com/assignment/fileextension/unit/service/FileValidationServiceTest.java:46-93 | a structural failure is the same under every policy |
| FileValidationService.ValidateAgreesWithNameCheck | src/test/java/com/assignment/fileextension/unit/service/FileValidationServiceTest.java:95-146 | a validated upload is allowed iff the file-name check says not blocked |
| FileValidationService.NoExtensionIsAllowed | src/test/java/com/assignment/fileextension/unit/service/FileValidationServiceTest.java:136-146 | a non-empty name without a dot is allowed under every policy |
| FileValidationService.PlainNameBlocked | src/test/java/com/assignment/fileextension/unit/service/FileValidationServiceTest.java:113-134 | a name of plain segments is blocked as soon as any segment after the first is a blocked candidate |
| FileValidationService.PlainNameVerdict | src/test/java/com/assignment/fileextension/unit/service/FileValidationServiceTest.java:113-134 | if exactly one blocked token occurs after the first segment, the verdict reports that token |
| FileValidationService.PlainNameClear | src/test/java/com/assignment/fileextension/unit/service/FileValidationServiceTest.java:148-161 | a name of plain segments none of whose candidates is blocked passes the name check |
| FileValidationService.PlainNameAllowed | src/test/java/com/assignment/fileextension/unit/service/FileValidationServiceTest.java:31-44 | such a name, with content within the limit, is Allowed on upload |
| FileValidationService.ResultAccessors | src/test/java/com/assignment/fileextension/unit/service/FileValidationServiceTest.java:175-201 | Allowed reports allowed with no reason, kind or extension; Blocked(r, k, e) reports blocked and returns r, k and e |
| FileUploadFlow.UploadFile | src/test/java/com/assignment/fileextension/integration/FileExtensionIntegrationTest.java:77-100 | a structural failure is a bad request and a blocked name is rejected, both leaving the state alone; otherwise exactly one ACTIVE, unprotected record with the recorded extension is appended and the policy is unchanged |
| FileUploadFlow.SeedRespectsPolicy | src/test/java/com/assignment/fileextension/fixtures/TestDataFixture.java:107-117 | the seeded state stores no file the policy would refuse |
| FileUploadFlow.UploadRespectsPolicy | src/test/java/com/assignment/fileextension/integration/FileExtensionIntegrationTest.java:77-100 | an upload that goes through never stores an unprotected file of a blocked extension |
| FileUploadFlow.ToggleRespectsPolicy | src/test/java/com/assignment/fileextension/integration/FileExtensionIntegrationTest.java:140-148 | toggling a fixed flag keeps the store consistent with the policy |
| FileUploadFlow.AddRespectsPolicy | src/test/java/com/assignment/fileextension/unit/service/ExtensionServiceTest.java:115-128 | adding a custom extension keeps the store consistent with the policy |
| FileUploadFlow.ProtectRespectsPolicy | src/test/java/com/assignment/fileextension/integration/FileExtensionIntegrationTest.java:211-218 | protecting a stored file keeps the store consistent with the policy |
| FileUploadFlow.UnprotectCanBreakPolicy | src/test/java/com/assignment/fileextension/unit/service/FileStorageServiceTest.java:173-195 | clearing the exception of an ACTIVE file of a blocked extension succeeds and leaves an offending file, although the state respected the policy before |
| FileUploadFlow.DeleteRespectsPolicy | src/test/java/com/assignment/fileextension/integration/FileExtensionIntegrationTest.java:102-112 | deleting a custom extension keeps the store consistent with the policy |
| Scenarios.SeedBlocksOnlyExe | src/test/java/com/assignment/fileextension/fixtures/TestDataFixture.java:107-117 | under the seed a token is blocked iff it is "exe" |
| Scenarios.AddToSeed | src/test/java/com/assignment/fileextension/integration/FileExtensionIntegrationTest.java:64-75 | adding a plain token that is not a fixed extension to the seed succeeds, makes it the only custom entry, and the blocked tokens become "exe" and that token |
| Scenarios.MalwareAdded | src/test/java/com/assignment/fileextension/integration/FileExtensionIntegrationTest.java:64-75 | after "malware" is added, it is the only custom entry, no file is stored, and "txt" is still allowed |
| Scenarios.VirusMalwareRefused | src/test/java/com/assignment/fileextension/integration/FileExtensionIntegrationTest.java:77-85 | "virus.malware" is rejected, reporting "malware", whenever "malware" is blocked |
| Scenarios.DocumentTxtStored | src/test/java/com/assignment/fileextension/integration/FileExtensionIntegrationTest.java:87-100 | "document.txt" is stored as one more record whenever "txt" is not blocked |
| Scenarios.VirusMalwareClear | src/test/java/com/assignment/fileextension/integration/FileExtensionIntegrationTest.java:108-112 | "virus.malware" passes the name check whenever "malware" is not blocked |
| Scenarios.CustomWorkflowUploads | src/test/java/com/assignment/fileextension/integration/FileExtensionIntegrationTest.java:61-100 | after "malware" is added to the seed, "virus.malware" is rejected on "malware" and "document.txt" becomes the only stored file |
| Scenarios.CustomWorkflowDelete | src/test/java/com/assignment/fileextension/integration/FileExtensionIntegrationTest.java:102-112 | deleting the "malware" entry succeeds and "virus.malware" is no longer blocked |
| Scenarios.MalwareExeBlockedAtSeed | src/test/java/com/assignment/fileextension/integration/FileExtensionIntegrationTest.java:118-122 | under the seed "malware.exe" is blocked |
| Scenarios.ExeToggledOff | src/test/java/com/assignment/fileextension/integration/FileExtensionIntegrationTest.java:124-129 | allowing "exe" on the seed unblocks it and leaves the store empty |
| Scenarios.ProgramExeStored | src/test/java/com/assignment/fileextension/integration/FileExtensionIntegrationTest.java:131-138 | "program.exe" is stored with extension "exe" whenever "exe" is allowed |
| Scenarios.ExeReblocked | src/test/java/com/assignment/fileextension/integration/FileExtensionIntegrationTest.java:140-148 | blocking "exe" again deletes the stored unprotected "exe" upload, leaving no "exe" file |
| Scenarios.FixedToggleWorkflow | src/test/java/com/assignment/fileextension/integration/FileExtensionIntegrationTest.java:115-149 | "malware.exe" is blocked under the seed; once "exe" is allowed "program.exe" is stored as "exe"; re-blocking "exe" leaves no "exe" file |
| Scenarios.BlockedNameRefused | src/test/java/com/assignment/fileextension/integration/FileExtensionIntegrationTest.java:167-176 | a non-empty name the file-name check blocks is refused on the check-only path, with a reason |
| Scenarios.PlainNameRefusedOnCheck | src/test/java/com/assignment/fileextension/integration/FileExtensionIntegrationTest.java:151-177 | a name of plain segments with a blocked candidate anywhere after the first segment is refused on the check-only path |
| Scenarios.VirusAdded | src/test/java/com/assignment/fileextension/integration/FileExtensionIntegrationTest.java:154-157 | after "virus" is added to the seed, both "virus" and "exe" are blocked |
| Scenarios.DocumentPdfExeRefused | src/test/java/com/assignment/fileextension/integration/FileExtensionIntegrationTest.java:159-176 | "document.pdf.exe" is refused whenever "exe" is blocked |
| Scenarios.ImageJpgVirusRefused | src/test/java/com/assignment/fileextension/integration/FileExtensionIntegrationTest.java:159-176 | "image.jpg.virus" is refused whenever "virus" is blocked |
| Scenarios.BackupExeTxtRefused | src/test/java/com/assignment/fileextension/integration/FileExtensionIntegrationTest.java:159-176 | "backup.2024.exe.txt" is refused whenever "exe" is blocked |
| Scenarios.FileExeChainRefused | src/test/java/com/assignment/fileextension/integration/FileExtensionIntegrationTest.java:159-176 | "file.exe.pdf.txt" is refused whenever "exe" is blocked |
| Scenarios.BypassAttemptsRefused | src/test/java/com/assignment/fileextension/integration/FileExtensionIntegrationTest.java:151-177 | after "virus" is added to the seed, all four bypass names are refused on the check-only path |
| Scenarios.SeedFixedTxt | src/test/java/com/assignment/fileextension/fixtures/TestDataFixture.java:107-117 | "txt" is not a fixed extension |
| Scenarios.PlainUploadStored | src/test/java/com/assignment/fileextension/integration/FileExtensionIntegrationTest.java:182-196 | a two-segment plain name whose extension the policy allows is stored, recorded with that extension |
| Scenarios.Document1Stored | src/test/java/com/assignment/fileextension/integration/FileExtensionIntegrationTest.java:183-192 | "document1.txt" uploaded to the seed is stored as its only file, ACTIVE, recorded as "txt" |
| Scenarios.Document2Stored | src/test/java/com/assignment/fileextension/integration/FileExtensionIntegrationTest.java:186-196 | "document2.pdf" uploaded under the seeded policy is appended, recorded as "pdf" |
| Scenarios.TwoDocumentsStored | src/test/java/com/assignment/fileextension/integration/FileExtensionIntegrationTest.java:182-202 | uploading the two documents to the seed succeeds both times and stores exactly those two ACTIVE records, with extensions "txt" and "pdf" |
| Scenarios.OneOfTwoListed | src/test/java/com/assignment/fileextension/integration/FileExtensionIntegrationTest.java:204-209 | the "txt" listing of the two records is the "txt" record alone |
| Scenarios.ProtectedSurvivesAdd | src/test/java/com/assignment/fileextension/integration/FileExtensionIntegrationTest.java:211-228 | protecting a stored "txt" file and then adding "txt" as custom leaves that file findable by id, protected and ACTIVE |
| Scenarios.FileManagementWorkflow | src/test/java/com/assignment/fileextension/integration/FileExtensionIntegrationTest.java:179-229 | both uploads succeed and the store lists two files, one of them "txt"; protecting the "txt" file and adding "txt" keeps it protected and ACTIVE |
| Scenarios.DuplicateRefused | src/test/java/com/assignment/fileextension/integration/FileExtensionIntegrationTest.java:239-242 | re-adding a token that is already custom fails with AlreadyExists |
| Scenarios.FixedTokenRefused | src/test/java/com/assignment/fileextension/integration/FileExtensionIntegrationTest.java:244-247 | adding a fixed token as custom fails with Conflict |
| Scenarios.DuplicateAndFixedCollision | src/test/java/com/assignment/fileextension/integration/FileExtensionIntegrationTest.java:231-248 | after "malware" is added to the seed, adding it again fails with AlreadyExists and adding "exe" fails with Conflict |
| Scenarios.RepeatedAddKeepsOneRecord | src/test/java/com/assignment/fileextension/integration/FileExtensionIntegrationTest.java:295-314 | adding "test" twice fails the second time and leaves exactly one "test" record |
| Scenarios.OversizedUploadRefused | src/test/java/com/assignment/fileextension/integration/FileExtensionIntegrationTest.java:250-264 | a 101 MiB upload fails with FileTooLarge on both the upload and the check-only path |
| ValidationCases.DocumentPdfAllowed | src/test/java/com/assignment/fileextension/unit/service/FileValidationServiceTest.java:31-44 | "document.pdf" is allowed, with no reason, whenever "pdf" is not blocked |
| ValidationCases.MalwareExeVerdict | src/test/java/com/assignment/fileextension/unit/service/FileValidationServiceTest.java:95-111 | "malware.exe" is blocked on "exe" with kind BLOCKED_EXTENSION and a reason containing "exe" |
| ValidationCases.BackupChainVerdict | src/test/java/com/assignment/fileextension/unit/service/FileValidationServiceTest.java:113-134 | "document.backup.exe.txt" is blocked on "exe" when only "exe" among its segments is blocked, even though the last segment is allowed |
| ValidationCases.NumericSegmentIgnored | src/test/java/com/assignment/fileextension/unit/service/FileValidationServiceTest.java:148-161 | "backup.2024.txt" is allowed whenever "txt" is allowed, because "2024" is not checked |
| ValidationCases.ReadmeAllowed | src/test/java/com/assignment/fileextension/unit/service/FileValidationServiceTest.java:136-146 | "README" is allowed under every policy |
| ValidationCases.ComplexNameAllowed | src/test/java/com/assignment/fileextension/unit/service/FileValidationServiceTest.java:163-173 | "my.project.v1.final.doc.backup.pdf" is allowed when nothing is blocked |

## Left out

- The HTTP layer is not modelled: controllers, status codes, JSON bodies and the Korean message texts. Errors are enums; a block reason is only required to contain the extension.
- Physical file I/O is not modelled: blob storage, stored UUID names, paths and content types. A stored file is its metadata record.
- The audit log (`FileExtensionIntegrationTest.java:266-292`) is not modelled; it records outcomes and does not influence them.
- Timestamps and the creation-time ordering of the listing queries are left out. The listings return records in store order.
- The listings of fixed settings and custom extensions (`ExtensionServiceTest.java:66-113`) are not separate operations. They are the `fixed` map and the `custom` sequence of the policy.
- Concurrency and the store's uniqueness constraint as a tie-breaker are left out. Every operation is sequential.
- The integration test protects whichever file `findAll` lists first. The model protects the "txt" upload, the only choice under which the protection is exercised.
- The two-argument and three-argument token checks also receive the file name. The tests never show it influencing the decision, so the model drops it.
- Lower-casing covers ASCII letters only.
- ExtensionService.AddCustomExtension: does not refuse a token that normalizes to the empty string. The documented add rules name only the duplicate, fixed-collision and cap checks, and request validation in the HTTP layer is not modelled. A blank token is therefore stored as "", and its cascade removes the unprotected files recorded without an extension.
- ExtensionNames.NormalizeIdempotent: proved only when the normal form starts with neither a dot nor whitespace. `"..exe"` normalizes to `".exe"` and then to `"exe"` (`NormalizeTwoDots`), so idempotence on every input does not hold for these rules.
- FileStorageService.StoreFile: the successful-store unit case is not followed literally. Its mocked repository returns a record whose name differs from the asserted one, so its assertions cannot all hold together. The model stores the uploaded name, as the integration tests expect.

=== FILE: constants.dfy ===
/** The fixed limits the services enforce. */
module FileExtensionConstants {

  /** Largest accepted upload: 100 MiB (a 101 MiB upload is rejected). */
  const MAX_FILE_SIZE_BYTES: nat := 100 * 1024 * 1024

  /** Hard cap on the number of custom extensions. */
  const MAX_CUSTOM_EXTENSIONS: nat := 200
}

=== FILE: extension_names.dfy ===
/**
 * Extension tokens: the normalizer (trim, strip one leading dot, lower-case),
 * the dot splitter and its inverse, and the bypass-resistant extraction of
 * candidate extensions from a file name.
 */
module ExtensionNames {
  import opened Wrappers

  /** Java's `String.trim` treats every character up to U+0020 as white space. */
  predicate IsSpace(c: char) {
    c <= ' '
  }

  predicate IsDigit(c: char) {
    '0' <= c <= '9'
  }

  predicate IsUpper(c: char) {
    'A' <= c <= 'Z'
  }

  // ---------------------------------------------------------------------------
  // Lower-casing (ASCII letters only)
  // ---------------------------------------------------------------------------

  function LowerChar(c: char): (d: char)
    ensures !IsUpper(d)
    ensures IsUpper(c) ==> d != c && (d as int) - (c as int) == 32
    ensures !IsUpper(c) ==> d == c
  {
    if IsUpper(c) then (c as int + 32) as char else c
  }

  predicate IsLowerCase(s: string) {
    forall i :: 0 <= i < |s| ==> !IsUpper(s[i])
  }

  function Lower(s: string): (r: string) {
    seq(|s|, i requires 0 <= i < |s| => LowerChar(s[i]))
  }

  /** Lower-casing keeps the length, maps every character through `LowerChar` and leaves no upper-case letter. */
  lemma LowerIsLowerCase(s: string)
    ensures |Lower(s)| == |s|
    ensures forall i :: 0 <= i < |s| ==> Lower(s)[i] == LowerChar(s[i])
    ensures IsLowerCase(Lower(s))
  {
  }

  /** Lower-casing changes nothing in a string that has no upper-case letter. */
  lemma LowerOfLowerCase(s: string)
    requires IsLowerCase(s)
    ensures Lower(s) == s
  {
  }

  // ---------------------------------------------------------------------------
  // Trimming
  // ---------------------------------------------------------------------------

  function TrimStart(s: string): (r: string) {
    if |s| > 0 && IsSpace(s[0]) then TrimStart(s[1..]) else s
  }

  function TrimEnd(s: string): (r: string) {
    if |s| > 0 && IsSpace(s[|s| - 1]) then TrimEnd(s[..|s| - 1]) else s
  }

  function Trim(s: string): (r: string) {
    TrimEnd(TrimStart(s))
  }

  /** Trimming the front drops a run of white space and stops at the first other character. */
  lemma {:induction false} TrimStartSpec(s: string)
    ensures var r := TrimStart(s);
      && |r| <= |s| && r == s[|s| - |r|..]
      && (|r| == 0 || !IsSpace(r[0]))
      && forall i :: 0 <= i < |s| - |r| ==> IsSpace(s[i])
  {
    if |s| > 0 && IsSpace(s[0]) {
      TrimStartSpec(s[1..]);
      var r := TrimStart(s);
      assert s[1..][|s| - 1 - |r|..] == s[|s| - |r|..];
      forall i | 0 < i < |s| - |r| ensures IsSpace(s[i]) {
        assert s[1..][i - 1] == s[i];
      }
    }
  }

  /** Trimming the back drops a run of white space and stops at the last other character. */
  lemma {:induction false} TrimEndSpec(s: string)
    ensures var r := TrimEnd(s);
      && |r| <= |s| && r == s[..|r|]
      && (|r| == 0 || !IsSpace(r[|r| - 1]))
      && forall i :: |r| <= i < |s| ==> IsSpace(s[i])
  {
    if |s| > 0 && IsSpace(s[|s| - 1]) {
      var t := s[..|s| - 1];
      TrimEndSpec(t);
      var r := TrimEnd(s);
      assert t[..|r|] == s[..|r|];
      forall i | |r| <= i < |s| - 1 ensures IsSpace(s[i]) {
        assert t[i] == s[i];
      }
    }
  }

  /** A string with no white space at either end is its own trim. */
  lemma TrimOfTrimmed(s: string)
    requires |s| == 0 || (!IsSpace(s[0]) && !IsSpace(s[|s| - 1]))
    ensures Trim(s) == s
  {
  }

  // ---------------------------------------------------------------------------
  // Normalizer
  // ---------------------------------------------------------------------------

  function StripLeadingDot(s: string): (r: string) {
    if |s| > 0 && s[0] == '.' then s[1..] else s
  }

  /**
   * Canonical form of an extension token: trim white space, drop at most one
   * leading dot, lower-case.  A blank token normalizes to the empty string.
   */
  function Normalize(raw: string): (r: string) {
    Lower(StripLeadingDot(Trim(raw)))
  }

  /** A normalized token has no upper-case letter. */
  lemma NormalizeIsLowerCase(raw: string)
    ensures IsLowerCase(Normalize(raw))
    ensures |Normalize(raw)| <= |raw|
  {
    TrimStartSpec(raw);
    TrimEndSpec(TrimStart(raw));
    LowerIsLowerCase(StripLeadingDot(Trim(raw)));
  }

  /** A normalized token never ends in white space. */
  lemma NormalizeEndsClean(raw: string)
    ensures var r := Normalize(raw); |r| == 0 || !IsSpace(r[|r| - 1])
  {
    var t := Trim(raw);
    var u := StripLeadingDot(t);
    TrimEndSpec(TrimStart(raw));
    LowerIsLowerCase(u);
    if |u| > 0 {
      assert u[|u| - 1] == t[|t| - 1];
    }
  }

  /** The spellings "EXE", ".exe" and " exe " all denote the token "exe"; blank input denotes nothing. */
  lemma NormalizeExamples()
    ensures Normalize("EXE") == "exe"
    ensures Normalize(".exe") == "exe"
    ensures Normalize(" exe ") == "exe"
    ensures Normalize("   ") == ""
  {
    NormalizeUpperCase();
    NormalizeDotted();
    NormalizePadded();
    assert TrimStart("   ") == "";
  }

  lemma NormalizeUpperCase()
    ensures Normalize("EXE") == "exe"
  {
    assert Trim("EXE") == "EXE";
    assert Lower("EXE") == "exe";
  }

  lemma NormalizeDotted()
    ensures Normalize(".exe") == "exe"
  {
    var t := "exe";
    assert Normalize("." + t) == t by {
      assert IsPlainToken(t);
      NormalizeDropsDot(t);
    }
    assert "." + t == ".exe";
  }

  /** One leading dot in front of a plain token is dropped. */
  lemma NormalizeDropsDot(t: string)
    requires IsPlainToken(t)
    ensures Normalize("." + t) == t
  {
    var s := "." + t;
    assert Trim(s) == s by {
      TrimOfTrimmed(s);
    }
    assert StripLeadingDot(s) == t by {
      assert s[1..] == t;
    }
    assert Lower(t) == t by {
      LowerOfLowerCase(t);
    }
  }

  lemma NormalizePadded()
    ensures Normalize(" exe ") == "exe"
  {
    assert TrimStart(" exe ") == "exe ";
    assert TrimEnd("exe ") == "exe";
    assert Lower("exe") == "exe";
  }

  /**
   * Normalizing twice equals normalizing once whenever the first result does
   * not itself begin with a dot or with white space.
   */
  lemma NormalizeIdempotent(raw: string)
    requires var r := Normalize(raw); |r| == 0 || (r[0] != '.' && !IsSpace(r[0]))
    ensures Normalize(Normalize(raw)) == Normalize(raw)
  {
    var r := Normalize(raw);
    NormalizeEndsClean(raw);
    NormalizeIsLowerCase(raw);
    TrimOfTrimmed(r);
    assert StripLeadingDot(r) == r;
    LowerOfLowerCase(r);
  }

  /** A token made only of lower-case ASCII letters and digits. */
  predicate IsPlainToken(s: string) {
    forall i :: 0 <= i < |s| ==> ('a' <= s[i] <= 'z') || IsDigit(s[i])
  }

  /** A plain token is already in normal form. */
  lemma NormalizePlainToken(s: string)
    requires IsPlainToken(s)
    ensures Normalize(s) == s
  {
    TrimOfTrimmed(s);
    LowerOfLowerCase(s);
  }

  /** Stripping only one dot makes "..exe" normalize in two steps, not one. */
  lemma NormalizeTwoDots()
    ensures Normalize("..exe") == ".exe"
    ensures Normalize(Normalize("..exe")) == "exe"
  {
    var t := ".exe";
    var s := "." + t;
    assert s == "..exe";
    TrimOfTrimmed(s);
    assert StripLeadingDot(s) == t;
    LowerOfLowerCase(t);
    NormalizeDotted();
  }

  // ---------------------------------------------------------------------------
  // Splitting on dots
  // ---------------------------------------------------------------------------

  /** The dot-separated segments of `s`; there is always at least one. */
  function Split(s: string): (r: seq<string>)
    ensures |r| >= 1
    ensures forall k :: 0 <= k < |r| ==> '.' !in r[k]
  {
    if |s| == 0 then [""]
    else
      var rest := Split(s[1..]);
      if s[0] == '.' then [""] + rest
      else [[s[0]] + rest[0]] + rest[1..]
  }

  /** The inverse of `Split`: the segments glued back together with dots. */
  function Join(parts: seq<string>): (r: string)
    requires |parts| >= 1
  {
    if |parts| == 1 then parts[0] else parts[0] + "." + Join(parts[1..])
  }

  /** Splitting loses nothing: the segments re-joined give back the name. */
  lemma {:induction false} JoinSplit(s: string)
    ensures Join(Split(s)) == s
  {
    if |s| > 0 {
      var rest := Split(s[1..]);
      JoinSplit(s[1..]);
      if s[0] == '.' {
        assert Split(s) == [""] + rest;
        assert Split(s)[1..] == rest;
      } else {
        var r := Split(s);
        assert r == [[s[0]] + rest[0]] + rest[1..];
        if |rest| == 1 {
          assert Join(r) == [s[0]] + rest[0];
        } else {
          assert r[1..] == rest[1..];
          assert Join(r) == [s[0]] + rest[0] + "." + Join(rest[1..]);
        }
      }
    }
  }

  /** Splitting a dot-free name gives the name back as its only segment. */
  lemma {:induction false} SplitNoDot(s: string)
    requires '.' !in s
    ensures Split(s) == [s]
  {
    if |s| > 0 {
      assert '.' !in s[1..] by {
        forall i | 0 <= i < |s| - 1 ensures s[1..][i] != '.' {
          assert s[1..][i] == s[i + 1];
        }
      }
      SplitNoDot(s[1..]);
      assert [s[0]] + s[1..] == s;
    }
  }

  /** A dot-free segment in front of a split name extends its first segment. */
  lemma {:induction false} SplitPrefix(a: string, s: string)
    requires '.' !in a
    ensures Split(a + s) == [a + Split(s)[0]] + Split(s)[1..]
    decreases |a|
  {
    if |a| > 0 {
      assert (a + s)[1..] == a[1..] + s;
      assert '.' !in a[1..] by {
        forall i | 0 <= i < |a| - 1 ensures a[1..][i] != '.' {
          assert a[1..][i] == a[i + 1];
        }
      }
      SplitPrefix(a[1..], s);
      assert [a[0]] + (a[1..] + Split(s)[0]) == a + Split(s)[0];
    } else {
      assert a + s == s;
      assert a + Split(s)[0] == Split(s)[0];
    }
  }

  /** Joining dot-free segments and splitting again gives the segments back. */
  lemma {:induction false} SplitJoin(parts: seq<string>)
    requires |parts| >= 1
    requires forall k :: 0 <= k < |parts| ==> '.' !in parts[k]
    ensures Split(Join(parts)) == parts
  {
    if |parts| == 1 {
      SplitNoDot(parts[0]);
    } else {
      var tail := parts[1..];
      SplitJoin(tail);
      var rest := "." + Join(tail);
      assert Split(rest) == [""] + Split(Join(tail));
      SplitPrefix(parts[0], rest);
      assert parts[0] + rest == Join(parts);
      assert parts[0] + "" == parts[0];
      assert [parts[0]] + tail == parts;
    }
  }

  // ---------------------------------------------------------------------------
  // Candidate extensions
  // ---------------------------------------------------------------------------

  /** All-digit tokens such as "2024" are version or date infixes, never extensions. */
  predicate IsNumeric(t: string) {
    |t| > 0 && forall i :: 0 <= i < |t| ==> IsDigit(t[i])
  }

  /** A normalized segment is checked against the policy when it is non-empty and not all digits. */
  predicate IsCandidate(t: string) {
    |t| > 0 && !IsNumeric(t)
  }

  /** A token that starts with a letter is checked against the policy. */
  lemma LetterLedIsCandidate(t: string)
    requires |t| > 0 && 'a' <= t[0] <= 'z'
    ensures IsCandidate(t)
  {
    assert !IsDigit(t[0]);
  }

  /** `t` is the normal form of one of `segs`. */
  ghost predicate NormalizesSome(segs: seq<string>, t: string) {
    exists i :: 0 <= i < |segs| && t == Normalize(segs[i])
  }

  lemma NormalizesSomeCons(segs: seq<string>, t: string)
    requires |segs| > 0
    ensures NormalizesSome(segs, t) <==> t == Normalize(segs[0]) || NormalizesSome(segs[1..], t)
  {
    if NormalizesSome(segs[1..], t) {
      var i :| 0 <= i < |segs| - 1 && t == Normalize(segs[1..][i]);
      assert segs[1..][i] == segs[i + 1];
    }
    if NormalizesSome(segs, t) && t != Normalize(segs[0]) {
      var i :| 0 <= i < |segs| && t == Normalize(segs[i]);
      assert segs[i] == segs[1..][i - 1];
    }
  }

  /** The candidates among `segs`, normalized, in their original order. */
  function Candidates(segs: seq<string>): (r: seq<string>)
    ensures |r| <= |segs|
    ensures forall t :: t in r <==> IsCandidate(t) && NormalizesSome(segs, t)
  {
    if |segs| == 0 then []
    else
      var t := Normalize(segs[0]);
      var rest := Candidates(segs[1..]);
      var r := if IsCandidate(t) then [t] + rest else rest;
      assert forall u :: u in r <==> IsCandidate(u) && NormalizesSome(segs, u) by {
        forall u ensures u in r <==> IsCandidate(u) && NormalizesSome(segs, u) {
          NormalizesSomeCons(segs, u);
        }
      }
      r
  }

  /** Every candidate is the normal form of some segment. */
  lemma CandidateSource(segs: seq<string>, k: nat)
    requires k < |Candidates(segs)|
    ensures exists b :: 0 <= b < |segs| && Candidates(segs)[k] == Normalize(segs[b])
  {
    assert Candidates(segs)[k] in Candidates(segs);
  }

  /**
   * Candidates keep the order of their segments: of two candidates, the
   * earlier one comes from an earlier segment.
   */
  lemma {:induction false} CandidatesInOrder(segs: seq<string>, i: nat, j: nat)
    requires i < j < |Candidates(segs)|
    ensures exists a, b :: (0 <= a < b < |segs|
      && Candidates(segs)[i] == Normalize(segs[a]) && Candidates(segs)[j] == Normalize(segs[b]))
    decreases |segs|
  {
    var r := Candidates(segs);
    var t := Normalize(segs[0]);
    var rest := Candidates(segs[1..]);
    assert r == if IsCandidate(t) then [t] + rest else rest;
    var i', j' := if IsCandidate(t) then i - 1 else i, if IsCandidate(t) then j - 1 else j;
    assert r[j] == rest[j'];
    if IsCandidate(t) && i == 0 {
      CandidateSource(segs[1..], j');
      var b :| 0 <= b < |segs[1..]| && rest[j'] == Normalize(segs[1..][b]);
      assert segs[1..][b] == segs[b + 1];
      assert 0 < b + 1 < |segs| && r[0] == Normalize(segs[0]) && r[j] == Normalize(segs[b + 1]);
    } else {
      assert r[i] == rest[i'];
      CandidatesInOrder(segs[1..], i', j');
      var a, b :| 0 <= a < b < |segs[1..]|
        && rest[i'] == Normalize(segs[1..][a]) && rest[j'] == Normalize(segs[1..][b]);
      assert segs[1..][a] == segs[a + 1] && segs[1..][b] == segs[b + 1];
      assert 0 <= a + 1 < b + 1 < |segs| && r[i] == Normalize(segs[a + 1]) && r[j] == Normalize(segs[b + 1]);
    }
  }

  /**
   * Every dot segment after the first is a candidate extension, so that
   * "document.pdf.exe" is checked for both "pdf" and "exe".  A missing name
   * or a name without a dot has no candidates.
   */
  function CandidateExtensions(fileName: Option<string>): (r: seq<string>)
    ensures fileName.None? ==> r == []
    ensures fileName.Some? && '.' !in fileName.value ==> r == []
    ensures forall k :: 0 <= k < |r| ==> IsCandidate(r[k])
    ensures fileName.Some? ==>
      forall t :: t in r <==> IsCandidate(t) && NormalizesSome(Split(fileName.value)[1..], t)
  {
    match fileName
    case None => []
    case Some(name) =>
      var segs := Split(name);
      assert '.' !in name ==> |segs| == 1 by {
        if '.' !in name {
          SplitNoDot(name);
        }
      }
      Candidates(segs[1..])
  }

  /** A plain segment starting with a letter is kept as a candidate. */
  lemma CandidatesKeepWord(t: string, rest: seq<string>)
    requires IsPlainToken(t) && |t| > 0 && !IsDigit(t[0])
    ensures Candidates([t] + rest) == [t] + Candidates(rest)
  {
    NormalizePlainToken(t);
    assert ([t] + rest)[1..] == rest;
  }

  /** An all-digit segment is dropped. */
  lemma CandidatesDropNumber(t: string, rest: seq<string>)
    requires IsNumeric(t)
    ensures Candidates([t] + rest) == Candidates(rest)
  {
    assert IsPlainToken(t);
    NormalizePlainToken(t);
    assert ([t] + rest)[1..] == rest;
  }

  /** A name built from plain segments splits back into them. */
  lemma SplitPlain(parts: seq<string>)
    requires |parts| >= 1
    requires forall k :: 0 <= k < |parts| ==> IsPlainToken(parts[k])
    ensures Split(Join(parts)) == parts
  {
    forall k | 0 <= k < |parts| ensures '.' !in parts[k] {
      assert IsPlainToken(parts[k]);
    }
    SplitJoin(parts);
  }

  /** Plain segments are their own normal forms. */
  lemma NormalizesSomePlain(segs: seq<string>, t: string)
    requires forall k :: 0 <= k < |segs| ==> IsPlainToken(segs[k])
    ensures NormalizesSome(segs, t) <==> t in segs
  {
    if NormalizesSome(segs, t) {
      var i :| 0 <= i < |segs| && t == Normalize(segs[i]);
      NormalizePlainToken(segs[i]);
    }
    if t in segs {
      var i :| 0 <= i < |segs| && segs[i] == t;
      NormalizePlainToken(segs[i]);
    }
  }

  /**
   * For a name made of plain segments, the candidates are exactly the segments
   * after the first that are not all digits.
   */
  lemma PlainNameCandidates(parts: seq<string>)
    requires |parts| >= 1
    requires forall k :: 0 <= k < |parts| ==> IsPlainToken(parts[k])
    ensures forall t :: t in CandidateExtensions(Some(Join(parts))) <==> IsCandidate(t) && t in parts[1..]
  {
    SplitPlain(parts);
    forall t ensures NormalizesSome(parts[1..], t) <==> t in parts[1..] {
      NormalizesSomePlain(parts[1..], t);
    }
  }

  /** The extension recorded for a stored file: its last segment, normalized ("" when there is no dot). */
  function StoredExtension(fileName: string): (r: string)
    ensures '.' !in fileName ==> r == ""
  {
    var segs := Split(fileName);
    assert '.' !in fileName ==> |segs| == 1 by {
      if '.' !in fileName {
        SplitNoDot(fileName);
      }
    }
    if |segs| < 2 then "" else Normalize(segs[|segs| - 1])
  }

  /** A name ending in a dot splits into at least two segments, the last of them empty. */
  lemma {:induction false} SplitTrailingDot(s: string)
    ensures |Split(s + ".")| >= 2 && Split(s + ".")[|Split(s + ".")| - 1] == ""
  {
    if |s| == 0 {
      assert Split(".") == [""] + Split("");
    } else {
      assert (s + ".")[1..] == s[1..] + ".";
      SplitTrailingDot(s[1..]);
    }
  }

  /** A name ending in a dot, such as "a.exe.", is recorded with the empty extension. */
  lemma StoredExtensionTrailingDot(name: string)
    ensures StoredExtension(name + ".") == ""
  {
    SplitTrailingDot(name);
  }

  /** The recorded extension, when it is a candidate at all, is one of the name's candidate extensions. */
  lemma StoredExtensionIsCandidate(fileName: string)
    ensures IsCandidate(StoredExtension(fileName)) ==> StoredExtension(fileName) in CandidateExtensions(Some(fileName))
  {
    var segs := Split(fileName);
    if |segs| >= 2 {
      var r := StoredExtension(fileName);
      assert r == Normalize(segs[1..][|segs| - 2]);
    }
  }


  /** The recorded extension of a name whose last segment is a plain token is that token. */
  lemma StoredExtensionOfLast(name: string, segs: seq<string>)
    requires Split(name) == segs && |segs| >= 2
    requires IsPlainToken(segs[|segs| - 1])
    ensures StoredExtension(name) == segs[|segs| - 1]
  {
    assert StoredExtension(name) == Normalize(segs[|segs| - 1]);
    NormalizePlainToken(segs[|segs| - 1]);
  }

  /** For a name made of plain segments the recorded extension is the last segment. */
  lemma StoredExtensionPlain(parts: seq<string>)
    requires |parts| >= 2
    requires forall k :: 0 <= k < |parts| ==> IsPlainToken(parts[k])
    ensures StoredExtension(Join(parts)) == parts[|parts| - 1]
  {
    var name := Join(parts);
    assert Split(name) == parts by {
      SplitPlain(parts);
    }
    assert IsPlainToken(parts[|parts| - 1]);
    StoredExtensionOfLast(name, parts);
  }
}

=== FILE: extension_service.dfy ===
/**
 * The extension policy: fixed extensions with a togglable block flag, a capped
 * list of custom (always blocked) extensions, the per-token and per-file-name
 * block decisions, and the administrative mutations with their cascading
 * deletion of already stored files.
 */
module ExtensionService {
  import opened Wrappers
  import opened FileExtensionConstants
  import opened ExtensionNames
  import FS = FileStorageService

  /** An administrator-added extension, blocked by its mere presence. */
  datatype CustomExtension = CustomExtension(id: nat, extension: string)

  /**
   * The policy tables: each fixed extension's block flag, the custom
   * extensions in store order, and the next custom id to hand out.
   */
  datatype Policy = Policy(fixed: map<string, bool>, custom: seq<CustomExtension>, nextCustomId: nat)

  /** Everything an administrative mutation may touch: the policy and the uploaded-file store. */
  datatype ServiceState = ServiceState(policy: Policy, store: FS.FileStore)

  datatype AdminError = NotFound | AlreadyExists | Conflict | LimitExceeded

  function CustomSet(custom: seq<CustomExtension>): (r: set<string>) {
    set e | e in custom :: e.extension
  }

  /** How many custom records carry the token `ext`. */
  function CountOf(custom: seq<CustomExtension>, ext: string): (n: nat) {
    if |custom| == 0 then 0
    else (if custom[0].extension == ext then 1 else 0) + CountOf(custom[1..], ext)
  }

  predicate HasCustomId(custom: seq<CustomExtension>, id: nat) {
    exists i :: 0 <= i < |custom| && custom[i].id == id
  }

  /**
   * The policy invariants: custom tokens and ids are unique, ids lie below the
   * next id, no token is both fixed and custom, and the cap is respected.
   */
  predicate Valid(p: Policy) {
    && (forall i, j :: 0 <= i < |p.custom| && 0 <= j < |p.custom| && i != j ==>
          p.custom[i].extension != p.custom[j].extension && p.custom[i].id != p.custom[j].id)
    && (forall i :: 0 <= i < |p.custom| ==> p.custom[i].id < p.nextCustomId)
    && (forall i :: 0 <= i < |p.custom| ==> p.custom[i].extension !in p.fixed)
    && |p.custom| <= MAX_CUSTOM_EXTENSIONS
  }

  // ---------------------------------------------------------------------------
  // Seed
  // ---------------------------------------------------------------------------

  /** The seven pre-seeded fixed extensions; only "exe" starts out blocked. */
  const SeedFixed: map<string, bool> :=
    map["bat" := false, "cmd" := false, "com" := false, "cpl" := false,
        "exe" := true, "scr" := false, "js" := false]

  const SeedPolicy := Policy(SeedFixed, [], 1)

  const SeedState := ServiceState(SeedPolicy, FS.EmptyStore)

  lemma SeedIsValid()
    ensures Valid(SeedPolicy)
    ensures |SeedFixed| == 7
    ensures forall e :: e in SeedFixed ==> (SeedFixed[e] <==> e == "exe")
  {
  }

  /** The fixed list names only short tokens: none is longer than three characters. */
  lemma SeedFixedShort(t: string)
    requires |t| > 3
    ensures t !in SeedFixed
  {
  }

  /** "exe" is a fixed extension, seeded as blocked. */
  lemma SeedFixedExe()
    ensures "exe" in SeedFixed && SeedFixed["exe"]
  {
  }

  // ---------------------------------------------------------------------------
  // Per-token decision
  // ---------------------------------------------------------------------------

  /**
   * Decision priority for one token: a fixed entry's flag wins; otherwise a
   * custom entry means blocked; otherwise the token is allowed.
   */
  function TokenBlocked(fixedStates: map<string, bool>, customs: set<string>, ext: string): (b: bool) {
    if ext in fixedStates then fixedStates[ext] else ext in customs
  }

  /** The per-token check against the stored policy. */
  function IsExtensionBlocked(p: Policy, ext: string): (b: bool) {
    TokenBlocked(p.fixed, CustomSet(p.custom), ext)
  }

  /**
   * The per-token check with a caller-supplied fixed-state map, which is
   * authoritative: the stored fixed settings are not read.
   */
  function IsExtensionBlockedWith(p: Policy, ext: string, fixedStates: map<string, bool>): (b: bool) {
    TokenBlocked(fixedStates, CustomSet(p.custom), ext)
  }

  /** Every currently blocked extension: fixed ones flagged blocked, and all custom ones. */
  function BlockedExtensions(p: Policy): set<string> {
    (set e | e in p.fixed && p.fixed[e]) + CustomSet(p.custom)
  }

  /** A fixed entry decides the token, in both directions. */
  lemma FixedEntryDecides(p: Policy, ext: string)
    requires ext in p.fixed
    ensures IsExtensionBlocked(p, ext) <==> p.fixed[ext]
  {
  }

  /** A custom token without a fixed entry is blocked. */
  lemma CustomEntryBlocks(p: Policy, ext: string)
    requires ext !in p.fixed && ext in CustomSet(p.custom)
    ensures IsExtensionBlocked(p, ext)
  {
  }

  /**
   * Under the policy invariants the decision agrees with the list of blocked
   * extensions, in both directions.
   */
  lemma BlockedIffListed(p: Policy, ext: string)
    requires Valid(p)
    ensures IsExtensionBlocked(p, ext) <==> ext in BlockedExtensions(p)
  {
    if ext in CustomSet(p.custom) {
      var e :| e in p.custom && e.extension == ext;
      var i :| 0 <= i < |p.custom| && p.custom[i] == e;
      assert ext !in p.fixed;
    }
  }

  /** With a supplied map the stored fixed settings make no difference. */
  lemma SuppliedStatesIgnoreStore(p: Policy, q: Policy, ext: string, fixedStates: map<string, bool>)
    requires p.custom == q.custom
    ensures IsExtensionBlockedWith(p, ext, fixedStates) == IsExtensionBlockedWith(q, ext, fixedStates)
    ensures IsExtensionBlockedWith(p, ext, p.fixed) == IsExtensionBlocked(p, ext)
  {
  }

  // ---------------------------------------------------------------------------
  // File-name decision
  // ---------------------------------------------------------------------------

  /** The position of the leftmost blocked token of `cands`, if any. */
  function FirstBlocked(fixedStates: map<string, bool>, customs: set<string>, cands: seq<string>): (r: Option<nat>)
    ensures r.None? <==> forall k :: 0 <= k < |cands| ==> !TokenBlocked(fixedStates, customs, cands[k])
    ensures r.Some? ==>
      && r.value < |cands|
      && TokenBlocked(fixedStates, customs, cands[r.value])
      && forall k :: 0 <= k < r.value ==> !TokenBlocked(fixedStates, customs, cands[k])
  {
    if |cands| == 0 then None
    else if TokenBlocked(fixedStates, customs, cands[0]) then Some(0)
    else
      match FirstBlocked(fixedStates, customs, cands[1..])
      case None => None
      case Some(k) => Some(k + 1)
  }

  /**
   * A file name is blocked when one of its candidate extensions is: every
   * dot segment after the first, except empty and all-digit ones.
   */
  function IsFileNameBlockedWith(p: Policy, fileName: Option<string>, fixedStates: map<string, bool>): (b: bool)
    ensures fileName.None? ==> !b
    ensures fileName.Some? && '.' !in fileName.value ==> !b
    ensures fileName.Some? ==>
      (b <==> exists t :: IsCandidate(t) && NormalizesSome(Split(fileName.value)[1..], t)
                          && IsExtensionBlockedWith(p, t, fixedStates))
  {
    var cands := CandidateExtensions(fileName);
    var r := FirstBlocked(fixedStates, CustomSet(p.custom), cands);
    assert r.Some? ==> cands[r.value] in cands;
    r.Some?
  }

  /** The file-name check against the stored policy. */
  function IsFileNameBlocked(p: Policy, fileName: Option<string>): (b: bool)
    ensures fileName.None? ==> !b
    ensures fileName.Some? && '.' !in fileName.value ==> !b
    ensures fileName.Some? ==>
      (b <==> exists t :: IsCandidate(t) && NormalizesSome(Split(fileName.value)[1..], t)
                          && IsExtensionBlocked(p, t))
  {
    IsFileNameBlockedWith(p, fileName, p.fixed)
  }

  /** A policy with no fixed and no custom entries. */
  const EmptyPolicy := Policy(map[], [], 1)

  /** Under an empty policy nothing is blocked. */
  lemma EmptyPolicyBlocksNothing(fileName: Option<string>)
    ensures !IsFileNameBlocked(EmptyPolicy, fileName)
  {
  }

  // ---------------------------------------------------------------------------
  // Toggling a fixed extension
  // ---------------------------------------------------------------------------

  /**
   * Sets a fixed extension's block flag.  An unknown extension fails with
   * NotFound.  Blocking cascades into deleting the stored files of that
   * extension; allowing has no side effect.
   */
  function UpdateFixedExtensionSetting(s: ServiceState, ext: string, blocked: bool): (r: Result<ServiceState, AdminError>)
    ensures ext !in s.policy.fixed <==> r == Failure(NotFound)
    ensures r.Failure? ==> r.error == NotFound
    ensures r.Success? ==>
      var p' := r.value.policy;
      && p'.fixed.Keys == s.policy.fixed.Keys
      && p'.custom == s.policy.custom
      && p'.nextCustomId == s.policy.nextCustomId
      && IsExtensionBlocked(p', ext) == blocked
      && (forall e :: e != ext ==> IsExtensionBlocked(p', e) == IsExtensionBlocked(s.policy, e))
      && (blocked ==> forall f :: f in r.value.store.files <==> f in s.store.files && !FS.Doomed(f, ext))
      && (!blocked ==> r.value.store == s.store)
    ensures r.Success? && Valid(s.policy) ==> Valid(r.value.policy)
    ensures r.Success? && FS.Valid(s.store) ==> FS.Valid(r.value.store)
  {
    if ext !in s.policy.fixed then Failure(NotFound)
    else
      var p := s.policy.(fixed := s.policy.fixed[ext := blocked]);
      var store := if blocked then FS.DeleteByExtension(s.store, ext) else s.store;
      Success(ServiceState(p, store))
  }

  /** Setting a fixed flag and then setting it back restores the policy; files removed on the way stay removed. */
  lemma ToggleRoundTrip(s: ServiceState, ext: string, blocked: bool)
    requires ext in s.policy.fixed
    ensures var r1 := UpdateFixedExtensionSetting(s, ext, blocked);
      && r1.Success?
      && var r2 := UpdateFixedExtensionSetting(r1.value, ext, s.policy.fixed[ext]);
         r2.Success? && r2.value.policy == s.policy
  {
    var f := s.policy.fixed;
    assert f[ext := blocked][ext := f[ext]] == f;
  }

  // ---------------------------------------------------------------------------
  // Adding a custom extension
  // ---------------------------------------------------------------------------

  /**
   * Adds a custom extension after normalizing the requested token.  It fails
   * with AlreadyExists for a token already present, then with Conflict for a
   * fixed token, then with LimitExceeded at the cap; on success it records
   * the entry and cascades into deleting stored files of that extension.
   */
  function AddCustomExtension(s: ServiceState, requested: string): (r: Result<(ServiceState, CustomExtension), AdminError>)
    ensures var t := Normalize(requested);
      && (r == Failure(AlreadyExists) <==> t in CustomSet(s.policy.custom))
      && (r == Failure(Conflict) <==> t !in CustomSet(s.policy.custom) && t in s.policy.fixed)
      && (r == Failure(LimitExceeded) <==>
            t !in CustomSet(s.policy.custom) && t !in s.policy.fixed
            && |s.policy.custom| >= MAX_CUSTOM_EXTENSIONS)
      && (r.Success? <==>
            t !in CustomSet(s.policy.custom) && t !in s.policy.fixed
            && |s.policy.custom| < MAX_CUSTOM_EXTENSIONS)
    ensures r.Success? ==>
      var (s', e) := r.value;
      && e.extension == Normalize(requested)
      && s'.policy.custom == s.policy.custom + [e]
      && s'.policy.fixed == s.policy.fixed
      && IsExtensionBlocked(s'.policy, e.extension)
      && (forall f :: f in s'.store.files <==> f in s.store.files && !FS.Doomed(f, e.extension))
    ensures r.Success? && FS.Valid(s.store) ==> FS.Valid(r.value.0.store)
  {
    var t := Normalize(requested);
    var custom := s.policy.custom;
    if t in CustomSet(custom) then Failure(AlreadyExists)
    else if t in s.policy.fixed then Failure(Conflict)
    else if |custom| >= MAX_CUSTOM_EXTENSIONS then Failure(LimitExceeded)
    else
      var e := CustomExtension(s.policy.nextCustomId, t);
      var p := Policy(s.policy.fixed, custom + [e], s.policy.nextCustomId + 1);
      assert e in p.custom;
      Success((ServiceState(p, FS.DeleteByExtension(s.store, t)), e))
  }

  /** A successful add keeps the policy invariants, the cap included, and hands out a fresh id. */
  lemma AddPreservesValid(s: ServiceState, requested: string)
    requires Valid(s.policy)
    requires AddCustomExtension(s, requested).Success?
    ensures Valid(AddCustomExtension(s, requested).value.0.policy)
    ensures !HasCustomId(s.policy.custom, AddCustomExtension(s, requested).value.1.id)
  {
    var (s', e) := AddCustomExtension(s, requested).value;
    var c := s.policy.custom;
    var c' := s'.policy.custom;
    assert c' == c + [e];
    forall i | 0 <= i < |c| ensures c[i].extension != e.extension && c[i].id != e.id {
      assert c[i] in c;
    }
  }

  /** A successful add blocks its token and changes no other token's decision. */
  lemma AddBlocksOnlyItsToken(s: ServiceState, requested: string)
    requires AddCustomExtension(s, requested).Success?
    ensures forall t :: IsExtensionBlocked(AddCustomExtension(s, requested).value.0.policy, t) <==>
      IsExtensionBlocked(s.policy, t) || t == Normalize(requested)
  {
    var (s', e) := AddCustomExtension(s, requested).value;
    assert CustomSet(s'.policy.custom) == CustomSet(s.policy.custom) + {e.extension} by {
      assert s'.policy.custom == s.policy.custom + [e];
    }
  }

  /** Under the invariants a custom token has exactly one record. */
  lemma {:induction false} UniqueCustomRecord(custom: seq<CustomExtension>, ext: string)
    requires forall i, j :: 0 <= i < |custom| && 0 <= j < |custom| && i != j ==>
      custom[i].extension != custom[j].extension
    ensures ext in CustomSet(custom) ==> CountOf(custom, ext) == 1
    ensures ext !in CustomSet(custom) ==> CountOf(custom, ext) == 0
  {
    if |custom| > 0 {
      var tail := custom[1..];
      assert forall i, j :: 0 <= i < |tail| && 0 <= j < |tail| && i != j ==>
        tail[i].extension != tail[j].extension by {
        forall i, j | 0 <= i < |tail| && 0 <= j < |tail| && i != j
          ensures tail[i].extension != tail[j].extension {
          assert tail[i] == custom[i + 1] && tail[j] == custom[j + 1];
        }
      }
      UniqueCustomRecord(tail, ext);
      assert CustomSet(custom) == {custom[0].extension} + CustomSet(tail) by {
        assert custom == [custom[0]] + tail;
      }
      forall e | e in tail ensures e.extension != custom[0].extension {
        var j :| 0 <= j < |tail| && tail[j] == e;
        assert custom[j + 1] == e;
      }
    }
  }

  /** A rejected duplicate add leaves exactly one record for the token. */
  lemma DuplicateAddKeepsOneRecord(s: ServiceState, requested: string)
    requires Valid(s.policy)
    requires AddCustomExtension(s, requested) == Failure(AlreadyExists)
    ensures CountOf(s.policy.custom, Normalize(requested)) == 1
  {
    UniqueCustomRecord(s.policy.custom, Normalize(requested));
  }

  /** A successful add leaves exactly one record for the new token. */
  lemma AddCreatesOneRecord(s: ServiceState, requested: string)
    requires Valid(s.policy)
    requires AddCustomExtension(s, requested).Success?
    ensures CountOf(AddCustomExtension(s, requested).value.0.policy.custom, Normalize(requested)) == 1
  {
    var p' := AddCustomExtension(s, requested).value.0.policy;
    UniqueCustomRecord(p'.custom, Normalize(requested));
  }

  // ---------------------------------------------------------------------------
  // Deleting a custom extension
  // ---------------------------------------------------------------------------

  function RemoveId(custom: seq<CustomExtension>, id: nat): (r: seq<CustomExtension>)
    ensures forall e :: e in r <==> e in custom && e.id != id
    ensures |r| <= |custom|
    ensures HasCustomId(custom, id) ==> |r| < |custom|
  {
    if |custom| == 0 then []
    else
      var rest := RemoveId(custom[1..], id);
      assert forall e :: e in custom <==> e == custom[0] || e in custom[1..] by {
        assert custom == [custom[0]] + custom[1..];
      }
      assert HasCustomId(custom, id) && custom[0].id != id ==> HasCustomId(custom[1..], id) by {
        if HasCustomId(custom, id) && custom[0].id != id {
          var i :| 0 <= i < |custom| && custom[i].id == id;
          assert custom[1..][i - 1] == custom[i];
        }
      }
      if custom[0].id == id then rest else [custom[0]] + rest
  }

  /**
   * Removes the custom extension with the given id.  A missing id fails with
   * NotFound and nothing is removed.  Stored files are not touched.
   */
  function DeleteCustomExtension(s: ServiceState, id: nat): (r: Result<ServiceState, AdminError>)
    ensures r.Failure? <==> !HasCustomId(s.policy.custom, id)
    ensures r.Failure? ==> r.error == NotFound
    ensures r.Success? ==>
      && r.value.store == s.store
      && r.value.policy.fixed == s.policy.fixed
      && r.value.policy.nextCustomId == s.policy.nextCustomId
      && |r.value.policy.custom| < |s.policy.custom|
      && forall e :: e in r.value.policy.custom <==> e in s.policy.custom && e.id != id
  {
    if !HasCustomId(s.policy.custom, id) then Failure(NotFound)
    else Success(s.(policy := s.policy.(custom := RemoveId(s.policy.custom, id))))
  }

  /** Removing the id of a record appended behind records with other ids gives back those records. */
  lemma {:induction false} RemoveAppended(custom: seq<CustomExtension>, e: CustomExtension)
    requires forall i :: 0 <= i < |custom| ==> custom[i].id != e.id
    ensures RemoveId(custom + [e], e.id) == custom
  {
    if |custom| == 0 {
      assert [e][1..] == [];
    } else {
      var tail := custom[1..];
      assert (custom + [e])[1..] == tail + [e];
      RemoveAppended(tail, e);
      assert custom == [custom[0]] + tail;
    }
  }

  /**
   * Deleting a custom extension right after adding it restores the custom
   * list; the files the add's cascade removed stay removed.
   */
  lemma AddThenDelete(s: ServiceState, requested: string)
    requires Valid(s.policy)
    requires AddCustomExtension(s, requested).Success?
    ensures var (s', e) := AddCustomExtension(s, requested).value;
      var r := DeleteCustomExtension(s', e.id);
      && r.Success?
      && r.value.policy.custom == s.policy.custom
      && r.value.policy.fixed == s.policy.fixed
      && r.value.store == s'.store
  {
    var (s', e) := AddCustomExtension(s, requested).value;
    AddPreservesValid(s, requested);
    assert HasCustomId(s'.policy.custom, e.id) by {
      assert s'.policy.custom[|s.policy.custom|] == e;
    }
    forall i | 0 <= i < |s.policy.custom| ensures s.policy.custom[i].id != e.id {
    }
    RemoveAppended(s.policy.custom, e);
  }

  /** Deleting a custom record keeps the policy invariants. */
  lemma DeletePreservesValid(s: ServiceState, id: nat)
    requires Valid(s.policy)
    requires DeleteCustomExtension(s, id).Success?
    ensures Valid(DeleteCustomExtension(s, id).value.policy)
  {
    var c := s.policy.custom;
    var c' := DeleteCustomExtension(s, id).value.policy.custom;
    DistinctAfterRemove(c, id);
    forall i, j | 0 <= i < |c'| && 0 <= j < |c'| && i != j
      ensures c'[i].extension != c'[j].extension && c'[i].id != c'[j].id
    {
      assert c'[i] in c' && c'[j] in c';
      var a :| 0 <= a < |c| && c[a] == c'[i];
      var b :| 0 <= b < |c| && c[b] == c'[j];
      assert a != b;
    }
    forall i | 0 <= i < |c'| ensures c'[i].id < s.policy.nextCustomId && c'[i].extension !in s.policy.fixed {
      assert c'[i] in c';
    }
  }

  /** Removing by id from a list of distinct records leaves distinct records. */
  lemma {:induction false} DistinctAfterRemove(custom: seq<CustomExtension>, id: nat)
    requires forall i, j :: 0 <= i < |custom| && 0 <= j < |custom| && i != j ==> custom[i] != custom[j]
    ensures forall i, j :: 0 <= i < |RemoveId(custom, id)| && 0 <= j < |RemoveId(custom, id)| && i != j ==>
      RemoveId(custom, id)[i] != RemoveId(custom, id)[j]
  {
    if |custom| > 0 {
      var tail := custom[1..];
      assert forall i, j :: 0 <= i < |tail| && 0 <= j < |tail| && i != j ==> tail[i] != tail[j] by {
        forall i, j | 0 <= i < |tail| && 0 <= j < |tail| && i != j ensures tail[i] != tail[j] {
          assert tail[i] == custom[i + 1] && tail[j] == custom[j + 1];
        }
      }
      DistinctAfterRemove(tail, id);
      var rest := RemoveId(tail, id);
      forall e | e in tail ensures e != custom[0] {
        var j :| 0 <= j < |tail| && tail[j] == e;
        assert custom[j + 1] == e;
      }
      if custom[0].id != id {
        var r := [custom[0]] + rest;
        assert r == RemoveId(custom, id);
        forall i, j | 0 <= i < |r| && 0 <= j < |r| && i != j ensures r[i] != r[j] {
          if i > 0 && j > 0 {
            assert r[i] == rest[i - 1] && r[j] == rest[j - 1];
          } else if i == 0 {
            assert r[j] == rest[j - 1] && r[j] in rest;
          } else {
            assert r[i] == rest[i - 1] && r[i] in rest;
          }
        }
      }
    }
  }

  /**
   * Once the custom record for a token that is not fixed is deleted, that
   * token is allowed again.
   */
  lemma DeleteUnblocks(s: ServiceState, id: nat, ext: string)
    requires Valid(s.policy)
    requires exists i :: 0 <= i < |s.policy.custom| && s.policy.custom[i] == CustomExtension(id, ext)
    ensures DeleteCustomExtension(s, id).Success?
    ensures !IsExtensionBlocked(DeleteCustomExtension(s, id).value.policy, ext)
  {
    var c := s.policy.custom;
    var i :| 0 <= i < |c| && c[i] == CustomExtension(id, ext);
    assert ext !in s.policy.fixed;
    var c' := DeleteCustomExtension(s, id).value.policy.custom;
    forall e | e in c' ensures e.extension != ext {
      var j :| 0 <= j < |c| && c[j] == e;
      assert j != i;
    }
  }

  // ---------------------------------------------------------------------------
  // Protected files
  // ---------------------------------------------------------------------------

  /** No policy mutation removes a file whose deletion exception is set. */
  lemma ProtectedFilesSurvive(s: ServiceState, f: FS.UploadedFile, ext: string, blocked: bool, requested: string, id: nat)
    requires f in s.store.files && f.deletionException
    ensures UpdateFixedExtensionSetting(s, ext, blocked).Success? ==>
      f in UpdateFixedExtensionSetting(s, ext, blocked).value.store.files
    ensures AddCustomExtension(s, requested).Success? ==>
      f in AddCustomExtension(s, requested).value.0.store.files
    ensures DeleteCustomExtension(s, id).Success? ==>
      f in DeleteCustomExtension(s, id).value.store.files
  {
  }
}

=== FILE: file_storage_service.dfy ===
/**
 * The uploaded-file store: saving a validated upload, the protection flag that
 * exempts a file from policy-driven deletion, and the cascading deletion run
 * when an extension becomes blocked.  Physical blobs are not modelled; a file
 * is its metadata record.
 */
module FileStorageService {
  import opened Wrappers
  import opened FileExtensionConstants
  import opened ExtensionNames

  datatype FileStatus = Active | Deleted

  datatype UploadedFile = UploadedFile(
    id: nat,
    originalFilename: string,
    extension: string,
    fileSize: nat,
    status: FileStatus,
    deletionException: bool)

  /** The uploaded-file repository: its records in store order and the next free id. */
  datatype FileStore = FileStore(files: seq<UploadedFile>, nextId: nat)

  datatype StorageError = EmptyFile | FileTooLarge | FileNotFound

  const EmptyStore := FileStore([], 1)

  predicate DistinctIds(files: seq<UploadedFile>) {
    forall i, j :: 0 <= i < |files| && 0 <= j < |files| && i != j ==> files[i].id != files[j].id
  }

  /** Every record has its own id, below the next id to hand out. */
  predicate Valid(st: FileStore) {
    && DistinctIds(st.files)
    && forall i :: 0 <= i < |st.files| ==> st.files[i].id < st.nextId
  }

  predicate HasId(files: seq<UploadedFile>, id: nat) {
    exists i :: 0 <= i < |files| && files[i].id == id
  }

  // ---------------------------------------------------------------------------
  // Lookup
  // ---------------------------------------------------------------------------

  /** The record with the given id, if any. */
  function FindById(files: seq<UploadedFile>, id: nat): (r: Option<UploadedFile>)
    ensures r.None? <==> !HasId(files, id)
    ensures r.Some? ==> r.value in files && r.value.id == id
  {
    if |files| == 0 then None
    else if files[0].id == id then Some(files[0])
    else
      var r := FindById(files[1..], id);
      assert HasId(files, id) <==> HasId(files[1..], id) by {
        if HasId(files, id) {
          var i :| 0 <= i < |files| && files[i].id == id;
          assert files[1..][i - 1] == files[i];
        }
        if HasId(files[1..], id) {
          var i :| 0 <= i < |files| - 1 && files[1..][i].id == id;
          assert files[1..][i] == files[i + 1];
        }
      }
      r
  }

  /** With distinct ids, looking a stored record up by its id finds that very record. */
  lemma {:induction false} FindByIdFinds(files: seq<UploadedFile>, f: UploadedFile)
    requires DistinctIds(files) && f in files
    ensures FindById(files, f.id) == Some(f)
  {
    var g := FindById(files, f.id).value;
    var i :| 0 <= i < |files| && files[i] == f;
    var j :| 0 <= j < |files| && files[j] == g;
    assert i == j;
  }

  // ---------------------------------------------------------------------------
  // Storing
  // ---------------------------------------------------------------------------

  /**
   * Saves an upload as a new ACTIVE, unprotected record.  An empty file and a
   * file over the size limit are rejected and nothing is saved.
   */
  function StoreFile(st: FileStore, fileName: string, size: nat): (r: Result<(FileStore, UploadedFile), StorageError>)
    ensures size == 0 <==> r == Failure(EmptyFile)
    ensures size > MAX_FILE_SIZE_BYTES <==> r == Failure(FileTooLarge)
    ensures r.Success? <==> 0 < size <= MAX_FILE_SIZE_BYTES
    ensures r.Success? ==>
      var (st', f) := r.value;
      && st'.files == st.files + [f]
      && f.originalFilename == fileName
      && f.extension == StoredExtension(fileName)
      && f.fileSize == size
      && f.status == Active
      && !f.deletionException
    ensures r.Success? && Valid(st) ==> !HasId(st.files, r.value.1.id) && Valid(r.value.0)
  {
    if size == 0 then Failure(EmptyFile)
    else if size > MAX_FILE_SIZE_BYTES then Failure(FileTooLarge)
    else
      var f := UploadedFile(st.nextId, fileName, StoredExtension(fileName), size, Active, false);
      Success((FileStore(st.files + [f], st.nextId + 1), f))
  }

  /** A stored upload can be looked up by the id it was given. */
  lemma StoreThenFind(st: FileStore, fileName: string, size: nat)
    requires Valid(st) && StoreFile(st, fileName, size).Success?
    ensures var (st', f) := StoreFile(st, fileName, size).value;
      FindById(st'.files, f.id) == Some(f)
  {
    var (st', f) := StoreFile(st, fileName, size).value;
    FindByIdFinds(st'.files, f);
  }

  // ---------------------------------------------------------------------------
  // Protection flag
  // ---------------------------------------------------------------------------

  function SetFlag(files: seq<UploadedFile>, id: nat, protect: bool): (r: seq<UploadedFile>)
    ensures |r| == |files|
    ensures forall i :: 0 <= i < |files| ==>
      r[i] == if files[i].id == id then files[i].(deletionException := protect) else files[i]
  {
    if |files| == 0 then []
    else
      var f := files[0];
      [if f.id == id then f.(deletionException := protect) else f] + SetFlag(files[1..], id, protect)
  }

  /**
   * Marks the file with the given id as protected (or unprotected) from
   * cascading deletion.  An unknown id fails and nothing is saved.
   */
  function SetDeletionException(st: FileStore, id: nat, protect: bool): (r: Result<FileStore, StorageError>)
    ensures r.Failure? <==> !HasId(st.files, id)
    ensures r.Failure? ==> r.error == FileNotFound
    ensures r.Success? ==>
      && r.value.nextId == st.nextId
      && |r.value.files| == |st.files|
      && (forall i :: 0 <= i < |st.files| && st.files[i].id == id ==>
            r.value.files[i] == st.files[i].(deletionException := protect))
      && (forall i :: 0 <= i < |st.files| && st.files[i].id != id ==> r.value.files[i] == st.files[i])
    ensures r.Success? && Valid(st) ==> Valid(r.value)
  {
    if FindById(st.files, id).None? then Failure(FileNotFound)
    else Success(st.(files := SetFlag(st.files, id, protect)))
  }

  /** After setting the flag, looking the id up finds the same record with the new flag. */
  lemma ProtectThenFind(st: FileStore, id: nat, protect: bool)
    requires Valid(st) && HasId(st.files, id)
    ensures var r := SetDeletionException(st, id, protect);
      && r.Success?
      && var g := FindById(r.value.files, id);
         && g.Some?
         && g.value == FindById(st.files, id).value.(deletionException := protect)
  {
    var r := SetDeletionException(st, id, protect);
    var f := FindById(st.files, id).value;
    var i :| 0 <= i < |st.files| && st.files[i] == f;
    FindByIdFinds(st.files, f);
    var g := r.value.files[i];
    assert g == f.(deletionException := protect) by {
      assert SetFlag(st.files, id, protect)[i] == g;
    }
    FindByIdFinds(r.value.files, g);
  }

  // ---------------------------------------------------------------------------
  // Cascading deletion
  // ---------------------------------------------------------------------------

  /** A file the cascade for `ext` removes: ACTIVE, of that extension, and not protected. */
  predicate Doomed(f: UploadedFile, ext: string) {
    f.extension == ext && f.status == Active && !f.deletionException
  }

  /**
   * Deletes every ACTIVE file of extension `ext` whose deletion exception is
   * not set; protected files, files of other extensions and files no longer
   * ACTIVE are kept.
   */
  function DeleteFilesByExtension(files: seq<UploadedFile>, ext: string): (r: seq<UploadedFile>)
    ensures |r| <= |files|
    ensures forall f :: f in r <==> f in files && !Doomed(f, ext)
    ensures (forall i :: 0 <= i < |files| ==> !Doomed(files[i], ext)) ==> r == files
    ensures DistinctIds(files) ==> DistinctIds(r)
  {
    if |files| == 0 then []
    else
      var rest := DeleteFilesByExtension(files[1..], ext);
      assert forall f :: f in files <==> f == files[0] || f in files[1..] by {
        assert files == [files[0]] + files[1..];
      }
      assert DistinctIds(files) ==> DistinctIds(files[1..]) && forall f :: f in rest ==> f.id != files[0].id by {
        if DistinctIds(files) {
          DistinctTail(files);
        }
      }
      if Doomed(files[0], ext) then rest
      else
        assert DistinctIds(files) ==> DistinctIds([files[0]] + rest) by {
          if DistinctIds(files) {
            DistinctCons(files[0], rest);
          }
        }
        [files[0]] + rest
  }

  /** Dropping the first record keeps ids distinct, and no later record shares the first one's id. */
  lemma DistinctTail(files: seq<UploadedFile>)
    requires |files| > 0 && DistinctIds(files)
    ensures DistinctIds(files[1..])
    ensures forall f :: f in files[1..] ==> f.id != files[0].id
  {
    forall f | f in files[1..] ensures f.id != files[0].id {
      var j :| 0 <= j < |files| - 1 && files[1..][j] == f;
      assert files[j + 1] == f;
    }
    forall i, j | 0 <= i < |files| - 1 && 0 <= j < |files| - 1 && i != j
      ensures files[1..][i].id != files[1..][j].id
    {
      assert files[1..][i] == files[i + 1] && files[1..][j] == files[j + 1];
    }
  }

  /** Putting a record with a fresh id in front keeps ids distinct. */
  lemma DistinctCons(x: UploadedFile, rest: seq<UploadedFile>)
    requires DistinctIds(rest) && forall f :: f in rest ==> f.id != x.id
    ensures DistinctIds([x] + rest)
  {
    var r := [x] + rest;
    forall i, j | 0 <= i < |r| && 0 <= j < |r| && i != j ensures r[i].id != r[j].id {
      if i > 0 && j > 0 {
        assert r[i] == rest[i - 1] && r[j] == rest[j - 1];
      } else if i == 0 {
        assert r[j] == rest[j - 1] && r[j] in rest;
      } else {
        assert r[i] == rest[i - 1] && r[i] in rest;
      }
    }
  }

  /** The cascade applied to the whole store. */
  function DeleteByExtension(st: FileStore, ext: string): (r: FileStore)
    ensures r.nextId == st.nextId
    ensures forall f :: f in r.files <==> f in st.files && !Doomed(f, ext)
    ensures Valid(st) ==> Valid(r)
  {
    var files := DeleteFilesByExtension(st.files, ext);
    assert forall i :: 0 <= i < |files| ==> files[i] in st.files;
    FileStore(files, st.nextId)
  }

  // ---------------------------------------------------------------------------
  // Listing queries
  // ---------------------------------------------------------------------------

  /** The records of extension `ext`, in store order. */
  function FilesOfExtension(files: seq<UploadedFile>, ext: string): (r: seq<UploadedFile>)
    ensures |r| <= |files|
    ensures forall f :: f in r <==> f in files && f.extension == ext
  {
    if |files| == 0 then []
    else
      assert forall f :: f in files <==> f == files[0] || f in files[1..] by {
        assert files == [files[0]] + files[1..];
      }
      (if files[0].extension == ext then [files[0]] else []) + FilesOfExtension(files[1..], ext)
  }

  /** The records in status `status`, in store order. */
  function FilesWithStatus(files: seq<UploadedFile>, status: FileStatus): (r: seq<UploadedFile>)
    ensures |r| <= |files|
    ensures forall f :: f in r <==> f in files && f.status == status
  {
    if |files| == 0 then []
    else
      assert forall f :: f in files <==> f == files[0] || f in files[1..] by {
        assert files == [files[0]] + files[1..];
      }
      (if files[0].status == status then [files[0]] else []) + FilesWithStatus(files[1..], status)
  }

  /**
   * When every record of `ext` is ACTIVE and unprotected, the cascade for
   * `ext` leaves nothing for the listing of `ext` to return.
   */
  lemma {:induction false} CascadeEmptiesListing(files: seq<UploadedFile>, ext: string)
    requires forall i :: 0 <= i < |files| && files[i].extension == ext ==>
      files[i].status == Active && !files[i].deletionException
    ensures FilesOfExtension(DeleteFilesByExtension(files, ext), ext) == []
  {
    if |files| > 0 {
      var tail := files[1..];
      assert forall i :: 0 <= i < |tail| ==> tail[i] == files[i + 1];
      CascadeEmptiesListing(tail, ext);
      var rest := DeleteFilesByExtension(tail, ext);
      if !Doomed(files[0], ext) {
        var r := [files[0]] + rest;
        assert r[0] == files[0] && r[1..] == rest;
      }
    }
  }

  /** After the cascade for `ext`, no unprotected ACTIVE file of `ext` remains. */
  lemma {:induction false} CascadeLeavesNoDoomed(files: seq<UploadedFile>, ext: string)
    ensures forall i :: 0 <= i < |DeleteFilesByExtension(files, ext)| ==>
      !Doomed(DeleteFilesByExtension(files, ext)[i], ext)
  {
    var r := DeleteFilesByExtension(files, ext);
    forall i | 0 <= i < |r| ensures !Doomed(r[i], ext) {
      assert r[i] in r;
    }
  }

  /** Running the cascade twice removes nothing more than running it once. */
  lemma CascadeIdempotent(files: seq<UploadedFile>, ext: string)
    ensures DeleteFilesByExtension(DeleteFilesByExtension(files, ext), ext) == DeleteFilesByExtension(files, ext)
  {
    CascadeLeavesNoDoomed(files, ext);
  }
}

=== FILE: file_upload_flow.dfy ===
/**
 * The upload flow that ties the pieces together: an upload is validated
 * against the current policy and, when allowed, stored.  Together with the
 * administrative mutations it keeps the store consistent with the policy:
 * no unprotected ACTIVE file carries a blocked extension.
 */
module FileUploadFlow {
  import opened Wrappers
  import opened FileExtensionConstants
  import opened ExtensionNames
  import opened FileValidationService
  import FS = FileStorageService
  import ES = ExtensionService

  /** The three ways an upload ends: stored, refused by the policy, or refused as malformed. */
  datatype UploadOutcome =
    | Uploaded(state: ES.ServiceState, stored: FS.UploadedFile)
    | Rejected(verdict: FileValidationResult)
    | BadRequest(error: ValidationError)

  /**
   * Validates the upload and stores it when the policy allows it.  A
   * structural failure and a blocked verdict both leave the state untouched.
   */
  function UploadFile(s: ES.ServiceState, file: MultipartFile): (r: UploadOutcome)
    ensures r.BadRequest? <==> ValidateFile(s.policy, file).Failure?
    ensures r.BadRequest? ==> r.error == ValidateFile(s.policy, file).error
    ensures r.Rejected? <==> ValidateFile(s.policy, file).Success? && ES.IsFileNameBlocked(s.policy, file.originalFilename)
    ensures r.Rejected? ==> r.verdict == ValidateFile(s.policy, file).value && r.verdict.IsBlocked()
    ensures r.Uploaded? ==>
      && file.originalFilename.Some?
      && !ES.IsFileNameBlocked(s.policy, file.originalFilename)
      && r.state.policy == s.policy
      && r.state.store.files == s.store.files + [r.stored]
      && r.stored.originalFilename == file.originalFilename.value
      && r.stored.extension == StoredExtension(file.originalFilename.value)
      && r.stored.fileSize == file.size
      && r.stored.status == FS.Active
      && !r.stored.deletionException
    ensures r.Uploaded? && FS.Valid(s.store) ==> FS.Valid(r.state.store) && !FS.HasId(s.store.files, r.stored.id)
  {
    match ValidateFile(s.policy, file)
    case Failure(e) => BadRequest(e)
    case Success(v) =>
      if v.IsBlocked() then Rejected(v)
      else
        var stored := FS.StoreFile(s.store, file.originalFilename.value, file.size);
        var (st', f) := stored.value;
        Uploaded(s.(store := st'), f)
  }

  // ---------------------------------------------------------------------------
  // Store consistent with the policy
  // ---------------------------------------------------------------------------

  /** A stored file the policy would refuse today and that nothing protects. */
  predicate Offending(p: ES.Policy, f: FS.UploadedFile) {
    f.status == FS.Active && !f.deletionException && IsCandidate(f.extension) && ES.IsExtensionBlocked(p, f.extension)
  }

  /** No unprotected ACTIVE file in the store carries a blocked extension. */
  predicate PolicyRespected(s: ES.ServiceState) {
    forall f :: f in s.store.files ==> !Offending(s.policy, f)
  }

  lemma SeedRespectsPolicy()
    ensures PolicyRespected(ES.SeedState)
  {
  }

  /** An upload that goes through never stores a file of a blocked extension. */
  lemma UploadRespectsPolicy(s: ES.ServiceState, file: MultipartFile)
    requires PolicyRespected(s)
    ensures UploadFile(s, file).Uploaded? ==> PolicyRespected(UploadFile(s, file).state)
  {
    var r := UploadFile(s, file);
    if r.Uploaded? {
      var f := r.stored;
      var name := file.originalFilename.value;
      if IsCandidate(f.extension) {
        StoredExtensionIsCandidate(name);
        assert f.extension in CandidateExtensions(Some(name));
        assert !ES.IsExtensionBlocked(s.policy, f.extension);
      }
      forall g | g in r.state.store.files ensures !Offending(s.policy, g) {
        assert g in s.store.files || g == f;
      }
    }
  }

  /**
   * Blocking a fixed extension cascades, so the store stays consistent;
   * allowing one only shrinks the blocked set.
   */
  lemma ToggleRespectsPolicy(s: ES.ServiceState, ext: string, blocked: bool)
    requires PolicyRespected(s)
    ensures ES.UpdateFixedExtensionSetting(s, ext, blocked).Success? ==>
      PolicyRespected(ES.UpdateFixedExtensionSetting(s, ext, blocked).value)
  {
    var r := ES.UpdateFixedExtensionSetting(s, ext, blocked);
    if r.Success? {
      forall g | g in r.value.store.files ensures !Offending(r.value.policy, g) {
        assert g in s.store.files;
      }
    }
  }

  /** Adding a custom extension cascades, so the store stays consistent. */
  lemma AddRespectsPolicy(s: ES.ServiceState, requested: string)
    requires PolicyRespected(s)
    ensures ES.AddCustomExtension(s, requested).Success? ==>
      PolicyRespected(ES.AddCustomExtension(s, requested).value.0)
  {
    var r := ES.AddCustomExtension(s, requested);
    if r.Success? {
      var (s', e) := r.value;
      forall g | g in s'.store.files ensures !Offending(s'.policy, g) {
        assert g in s.store.files && !FS.Doomed(g, e.extension);
        if g.extension != e.extension {
          assert e in s'.policy.custom;
          assert ES.CustomSet(s'.policy.custom) == ES.CustomSet(s.policy.custom) + {e.extension};
        }
      }
    }
  }

  /** Protecting a stored file can only remove offenders, so the store stays consistent. */
  lemma ProtectRespectsPolicy(s: ES.ServiceState, id: nat)
    requires PolicyRespected(s)
    ensures FS.SetDeletionException(s.store, id, true).Success? ==>
      PolicyRespected(s.(store := FS.SetDeletionException(s.store, id, true).value))
  {
    var r := FS.SetDeletionException(s.store, id, true);
    if r.Success? {
      forall g | g in r.value.files ensures !Offending(s.policy, g) {
        var i :| 0 <= i < |r.value.files| && r.value.files[i] == g;
        assert s.store.files[i] in s.store.files;
      }
    }
  }

  /**
   * Clearing the deletion exception is the one mutation that can break the
   * invariant: an ACTIVE file of a blocked extension that was kept only by
   * its exception becomes an offender.
   */
  lemma UnprotectCanBreakPolicy(s: ES.ServiceState, f: FS.UploadedFile)
    requires PolicyRespected(s)
    requires f in s.store.files && f.status == FS.Active
    requires IsCandidate(f.extension) && ES.IsExtensionBlocked(s.policy, f.extension)
    ensures f.deletionException
    ensures var r := FS.SetDeletionException(s.store, f.id, false);
      r.Success? && !PolicyRespected(s.(store := r.value))
  {
    var r := FS.SetDeletionException(s.store, f.id, false);
    var i :| 0 <= i < |s.store.files| && s.store.files[i] == f;
    assert FS.HasId(s.store.files, f.id);
    var g := r.value.files[i];
    assert g == f.(deletionException := false);
    assert g in r.value.files && Offending(s.policy, g);
  }

  /** Deleting a custom extension only unblocks, so the store stays consistent. */
  lemma DeleteRespectsPolicy(s: ES.ServiceState, id: nat)
    requires PolicyRespected(s)
    ensures ES.DeleteCustomExtension(s, id).Success? ==>
      PolicyRespected(ES.DeleteCustomExtension(s, id).value)
  {
    var r := ES.DeleteCustomExtension(s, id);
    if r.Success? {
      assert ES.CustomSet(r.value.policy.custom) <= ES.CustomSet(s.policy.custom);
    }
  }
}

=== FILE: file_validation_service.dfy ===
/**
 * Upload validation: structural checks on the uploaded file (content present,
 * size within the limit, a file name present) raised as failures, then the
 * policy verdict on every candidate extension of the name.
 */
module FileValidationService {
  import opened Wrappers
  import opened FileExtensionConstants
  import opened ExtensionNames
  import ES = ExtensionService

  datatype BlockReason = BlockedExtension

  /**
   * The policy verdict on an upload: allowed, or blocked with a human-readable
   * reason, the kind of reason and the offending extension.
   */
  datatype FileValidationResult =
    | Allowed
    | Blocked(reason: string, blockReason: BlockReason, blockedExtension: string)
  {
    predicate IsAllowed() {
      Allowed?
    }

    predicate IsBlocked() {
      Blocked?
    }

    /** The reason text; absent for an allowed upload. */
    function GetReason(): (r: Option<string>) {
      if Blocked? then Some(reason) else None
    }

    /** The reason kind; absent for an allowed upload. */
    function GetBlockReason(): (r: Option<BlockReason>) {
      if Blocked? then Some(blockReason) else None
    }

    /** The offending extension; absent for an allowed upload. */
    function GetBlockedExtension(): (r: Option<string>) {
      if Blocked? then Some(blockedExtension) else None
    }
  }

  /** What the upload carries that the checks look at: its original name (possibly null) and its size in bytes. */
  datatype MultipartFile = MultipartFile(originalFilename: Option<string>, size: nat)

  datatype ValidationError = NoFileSelected | FileTooLarge | InvalidFilename

  /** `sub` occurs in `s` starting at position `i`. */
  predicate OccursAt(s: string, sub: string, i: nat) {
    i + |sub| <= |s| && s[i..i + |sub|] == sub
  }

  /** `sub` occurs somewhere inside `s`. */
  ghost predicate Contains(s: string, sub: string) {
    exists i: nat :: OccursAt(s, sub, i)
  }

  /** The reason text of a block; it names the offending extension. */
  function BlockMessage(ext: string): (m: string)
    ensures Contains(m, ext)
  {
    var prefix := "blocked extension: ";
    var m := prefix + ext;
    assert OccursAt(m, ext, |prefix|);
    m
  }

  /** The verdict for an already extracted list of candidate extensions: the leftmost blocked one is reported. */
  function VerdictFor(p: ES.Policy, cands: seq<string>): (v: FileValidationResult)
    ensures v.IsAllowed() <==> forall k :: 0 <= k < |cands| ==> !ES.IsExtensionBlocked(p, cands[k])
    ensures v.IsBlocked() ==>
      && v.blockReason == BlockedExtension
      && Contains(v.reason, v.blockedExtension)
      && ES.IsExtensionBlocked(p, v.blockedExtension)
      && exists k :: 0 <= k < |cands| && cands[k] == v.blockedExtension
                     && forall j :: 0 <= j < k ==> !ES.IsExtensionBlocked(p, cands[j])
  {
    match ES.FirstBlocked(p.fixed, ES.CustomSet(p.custom), cands)
    case None => Allowed
    case Some(k) =>
      var ext := cands[k];
      Blocked(BlockMessage(ext), BlockedExtension, ext)
  }

  /**
   * Validates an upload.  Empty content, a size over the limit and a null or
   * empty name are failures, checked in that order; otherwise the verdict is
   * Blocked exactly when some candidate extension of the name is blocked.
   */
  function ValidateFile(p: ES.Policy, file: MultipartFile): (r: Result<FileValidationResult, ValidationError>)
    ensures r == Failure(NoFileSelected) <==> file.size == 0
    ensures r == Failure(FileTooLarge) <==> file.size > MAX_FILE_SIZE_BYTES
    ensures r == Failure(InvalidFilename) <==>
      0 < file.size <= MAX_FILE_SIZE_BYTES && (file.originalFilename.None? || file.originalFilename == Some(""))
    ensures r.Success? ==> r.value.IsBlocked() == ES.IsFileNameBlocked(p, file.originalFilename)
    ensures r.Success? && r.value.IsBlocked() ==>
      var cands := CandidateExtensions(file.originalFilename);
      && r.value.blockReason == BlockedExtension
      && Contains(r.value.reason, r.value.blockedExtension)
      && ES.IsExtensionBlocked(p, r.value.blockedExtension)
      && exists k :: 0 <= k < |cands| && cands[k] == r.value.blockedExtension
                     && forall j :: 0 <= j < k ==> !ES.IsExtensionBlocked(p, cands[j])
  {
    if file.size == 0 then Failure(NoFileSelected)
    else if file.size > MAX_FILE_SIZE_BYTES then Failure(FileTooLarge)
    else if file.originalFilename.None? || file.originalFilename == Some("") then Failure(InvalidFilename)
    else
      var cands := CandidateExtensions(file.originalFilename);
      var v := VerdictFor(p, cands);
      assert v.IsBlocked() ==> v.blockedExtension in cands;
      Success(v)
  }

  /** Structural failures do not depend on the policy: they are raised before it is consulted. */
  lemma StructuralFailureIgnoresPolicy(p: ES.Policy, q: ES.Policy, file: MultipartFile)
    requires ValidateFile(p, file).Failure?
    ensures ValidateFile(q, file) == ValidateFile(p, file)
  {
  }

  /** The upload check and the check-only file-name endpoint never disagree. */
  lemma ValidateAgreesWithNameCheck(p: ES.Policy, file: MultipartFile)
    requires ValidateFile(p, file).Success?
    ensures ValidateFile(p, file).value.IsAllowed() <==> !ES.IsFileNameBlocked(p, file.originalFilename)
  {
  }

  /** A name without a dot is allowed whatever the policy. */
  lemma NoExtensionIsAllowed(p: ES.Policy, name: string, size: nat)
    requires 0 < size <= MAX_FILE_SIZE_BYTES && name != "" && '.' !in name
    ensures ValidateFile(p, MultipartFile(Some(name), size)) == Success(Allowed)
  {
  }

  /** A name of at least two segments is never empty. */
  lemma JoinNonEmpty(parts: seq<string>)
    requires |parts| >= 2
    ensures Join(parts) != ""
  {
    assert Join(parts) == parts[0] + "." + Join(parts[1..]);
  }

  /**
   * A name made of plain segments is blocked as soon as one segment after the
   * first is a blocked candidate, wherever it sits in the chain.
   */
  lemma PlainNameBlocked(p: ES.Policy, parts: seq<string>, ext: string)
    requires |parts| >= 2
    requires forall k :: 0 <= k < |parts| ==> IsPlainToken(parts[k])
    requires ext in parts[1..] && IsCandidate(ext) && ES.IsExtensionBlocked(p, ext)
    ensures ES.IsFileNameBlocked(p, Some(Join(parts)))
  {
    PlainNameCandidates(parts);
    assert ext in CandidateExtensions(Some(Join(parts)));
  }

  /**
   * When exactly one blocked token occurs among the segments after the first,
   * the upload check reports that token.
   */
  lemma PlainNameVerdict(p: ES.Policy, parts: seq<string>, ext: string, size: nat)
    requires 0 < size <= MAX_FILE_SIZE_BYTES
    requires |parts| >= 2
    requires forall k :: 0 <= k < |parts| ==> IsPlainToken(parts[k])
    requires ext in parts[1..] && IsCandidate(ext) && ES.IsExtensionBlocked(p, ext)
    requires forall t :: t in parts[1..] && ES.IsExtensionBlocked(p, t) ==> t == ext
    ensures var r := ValidateFile(p, MultipartFile(Some(Join(parts)), size));
      r.Success? && r.value.IsBlocked() && r.value.blockedExtension == ext
  {
    var name := Join(parts);
    assert name != "" by {
      JoinNonEmpty(parts);
    }
    assert ES.IsFileNameBlocked(p, Some(name)) by {
      PlainNameBlocked(p, parts, ext);
    }
    var r := ValidateFile(p, MultipartFile(Some(name), size));
    assert r.Success? && r.value.IsBlocked();
    var b := r.value.blockedExtension;
    var cands := CandidateExtensions(Some(name));
    assert b in cands by {
      var k :| 0 <= k < |cands| && cands[k] == b;
    }
    assert b in parts[1..] by {
      PlainNameCandidates(parts);
    }
  }

  /** A name made of plain segments none of whose candidates is blocked passes the name check... */
  lemma PlainNameClear(p: ES.Policy, parts: seq<string>)
    requires |parts| >= 1
    requires forall k :: 0 <= k < |parts| ==> IsPlainToken(parts[k])
    requires forall t :: t in parts[1..] && IsCandidate(t) ==> !ES.IsExtensionBlocked(p, t)
    ensures !ES.IsFileNameBlocked(p, Some(Join(parts)))
  {
    PlainNameCandidates(parts);
  }

  /** ... and is allowed on upload. */
  lemma PlainNameAllowed(p: ES.Policy, parts: seq<string>, size: nat)
    requires 0 < size <= MAX_FILE_SIZE_BYTES
    requires |parts| >= 2
    requires forall k :: 0 <= k < |parts| ==> IsPlainToken(parts[k])
    requires forall t :: t in parts[1..] && IsCandidate(t) ==> !ES.IsExtensionBlocked(p, t)
    ensures ValidateFile(p, MultipartFile(Some(Join(parts)), size)) == Success(Allowed)
  {
    JoinNonEmpty(parts);
    PlainNameClear(p, parts);
  }

  /** The constructors behave as the result accessors promise. */
  lemma ResultAccessors(reason: string, ext: string)
    ensures Allowed.IsAllowed() && !Allowed.IsBlocked()
    ensures Allowed.GetReason() == None && Allowed.GetBlockReason() == None && Allowed.GetBlockedExtension() == None
    ensures var b := Blocked(reason, BlockedExtension, ext);
      && b.IsBlocked() && !b.IsAllowed()
      && b.GetReason() == Some(reason)
      && b.GetBlockReason() == Some(BlockedExtension)
      && b.GetBlockedExtension() == Some(ext)
  {
  }
}

=== FILE: scenarios.dfy ===
/**
 * End-to-end scenarios over the seeded service: sequences of administrative
 * mutations and uploads, each stated on concrete file names and tokens.
 * Uploads carry seven bytes of content unless stated otherwise.
 */
module Scenarios {
  import opened Wrappers
  import opened FileExtensionConstants
  import opened ExtensionNames
  import opened FileValidationService
  import opened FileUploadFlow
  import FS = FileStorageService
  import ES = ExtensionService

  /** The recorded extension of `base.ext`, both plain, is `ext`. */
  lemma TwoPartStoredExtension(base: string, ext: string)
    requires IsPlainToken(base) && IsPlainToken(ext)
    ensures StoredExtension(base + "." + ext) == ext
  {
    var parts := [base, ext];
    assert Join(parts) == base + "." + ext by {
      assert Join(parts[1..]) == ext;
    }
    StoredExtensionPlain(parts);
  }

  /** In the seeded policy exactly one token is blocked: "exe". */
  lemma SeedBlocksOnlyExe()
    ensures forall t :: ES.IsExtensionBlocked(ES.SeedPolicy, t) <==> t == "exe"
  {
    ES.SeedIsValid();
  }

  /** Adding a fresh token to the seed succeeds and makes it the only custom entry. */
  lemma AddToSeed(token: string)
    requires IsPlainToken(token) && token !in ES.SeedFixed
    ensures var r := ES.AddCustomExtension(ES.SeedState, token);
      && r.Success?
      && r.value.1.extension == token
      && r.value.0.policy.custom == [r.value.1]
      && r.value.0.policy.fixed == ES.SeedFixed
      && forall t :: ES.IsExtensionBlocked(r.value.0.policy, t) <==> t == "exe" || t == token
  {
    assert Normalize(token) == token by {
      NormalizePlainToken(token);
    }
    ES.AddBlocksOnlyItsToken(ES.SeedState, token);
    SeedBlocksOnlyExe();
  }

  /** "virus.malware" is refused, reporting "malware", whenever "malware" is blocked. */
  lemma VirusMalwareRefused(s: ES.ServiceState)
    requires ES.IsExtensionBlocked(s.policy, "malware")
    ensures var r := UploadFile(s, MultipartFile(Some("virus.malware"), 7));
      r.Rejected? && r.verdict.blockedExtension == "malware"
  {
    var parts := ["virus", "malware"];
    assert Join(parts) == "virus.malware";
    assert IsPlainToken(parts[0]) && IsPlainToken(parts[1]);
    assert parts[1][0] == 'm';
    PlainNameVerdict(s.policy, parts, "malware", 7);
  }

  /** "virus.malware" passes the name check whenever "malware" is not blocked. */
  lemma VirusMalwareClear(p: ES.Policy)
    requires !ES.IsExtensionBlocked(p, "malware")
    ensures !ES.IsFileNameBlocked(p, Some("virus.malware"))
  {
    var parts := ["virus", "malware"];
    assert Join(parts) == "virus.malware";
    assert IsPlainToken(parts[0]) && IsPlainToken(parts[1]);
    PlainNameClear(p, parts);
  }

  /** "document.txt" is stored as one more record whenever "txt" is not blocked. */
  lemma DocumentTxtStored(s: ES.ServiceState)
    requires !ES.IsExtensionBlocked(s.policy, "txt")
    ensures var r := UploadFile(s, MultipartFile(Some("document.txt"), 7));
      && r.Uploaded?
      && r.state.store.files == s.store.files + [r.stored]
      && r.stored.originalFilename == "document.txt"
  {
    var parts := ["document", "txt"];
    assert Join(parts) == "document.txt";
    assert IsPlainToken(parts[0]) && IsPlainToken(parts[1]);
    PlainNameAllowed(s.policy, parts, 7);
  }

  /** The state right after "malware" is added to the seed: one custom entry, no files, "txt" still allowed. */
  lemma MalwareAdded(malware: string, s1: ES.ServiceState, e: ES.CustomExtension)
    requires malware == "malware"
    requires ES.AddCustomExtension(ES.SeedState, malware) == Success((s1, e))
    ensures e.extension == malware && s1.policy.custom == [e] && s1.store.files == []
    ensures ES.IsExtensionBlocked(s1.policy, malware) && !ES.IsExtensionBlocked(s1.policy, "txt")
  {
    assert IsPlainToken(malware);
    ES.SeedFixedShort(malware);
    AddToSeed(malware);
    assert s1.store.files == [] by {
      assert forall f :: f !in s1.store.files;
    }
  }

  /**
   * Custom extension workflow, after "malware" has been added to the seed:
   * "virus.malware" is refused reporting "malware", and "document.txt" is
   * stored as the only file.
   */
  lemma CustomWorkflowUploads(malware: string, s1: ES.ServiceState, e: ES.CustomExtension)
    requires malware == "malware"
    requires ES.AddCustomExtension(ES.SeedState, malware) == Success((s1, e))
    ensures e.extension == malware && s1.policy.custom == [e]
    ensures var r := UploadFile(s1, MultipartFile(Some("virus.malware"), 7));
      r.Rejected? && r.verdict.blockedExtension == malware
    ensures var r := UploadFile(s1, MultipartFile(Some("document.txt"), 7));
      && r.Uploaded?
      && r.state.store.files == [r.stored]
      && r.stored.originalFilename == "document.txt"
  {
    MalwareAdded(malware, s1, e);
    VirusMalwareRefused(s1);
    DocumentTxtStored(s1);
  }

  /**
   * Custom extension workflow, last step: deleting the "malware" entry
   * succeeds and "virus.malware" is no longer blocked.
   */
  lemma CustomWorkflowDelete(malware: string, s1: ES.ServiceState, e: ES.CustomExtension, s2: ES.ServiceState)
    requires malware == "malware"
    requires ES.AddCustomExtension(ES.SeedState, malware) == Success((s1, e))
    requires s2.policy == s1.policy
    ensures var r := ES.DeleteCustomExtension(s2, e.id);
      r.Success? && !ES.IsFileNameBlocked(r.value.policy, Some("virus.malware"))
  {
    assert IsPlainToken(malware);
    ES.SeedFixedShort(malware);
    AddToSeed(malware);
    var r := ES.DeleteCustomExtension(s2, e.id);
    assert r.Success? && r.value.policy.custom == [] by {
      assert ES.HasCustomId(s2.policy.custom, e.id) by {
        assert s2.policy.custom[0] == e;
      }
      assert forall c :: c !in r.value.policy.custom;
    }
    assert !ES.IsExtensionBlocked(r.value.policy, malware) by {
      ES.SeedFixedShort(malware);
    }
    VirusMalwareClear(r.value.policy);
  }

  // ---------------------------------------------------------------------------
  // Fixed extension toggle workflow
  // ---------------------------------------------------------------------------

  /** Under the seed "malware.exe" is refused by the name check. */
  lemma MalwareExeBlockedAtSeed()
    ensures ES.IsFileNameBlocked(ES.SeedPolicy, Some("malware.exe"))
  {
    var parts := ["malware", "exe"];
    assert Join(parts) == "malware.exe";
    assert IsPlainToken(parts[0]) && IsPlainToken(parts[1]);
    assert parts[1..][0] == "exe";
    LetterLedIsCandidate("exe");
    SeedBlocksOnlyExe();
    PlainNameBlocked(ES.SeedPolicy, parts, "exe");
  }

  /** Allowing "exe" on the seed unblocks it and keeps the (empty) store. */
  lemma ExeToggledOff(exe: string, s1: ES.ServiceState)
    requires exe == "exe"
    requires ES.UpdateFixedExtensionSetting(ES.SeedState, exe, false) == Success(s1)
    ensures !ES.IsExtensionBlocked(s1.policy, exe) && exe in s1.policy.fixed && s1.store.files == []
  {
    ES.SeedFixedExe();
  }

  /** "program.exe" is stored, with extension "exe", whenever "exe" is not blocked. */
  lemma ProgramExeStored(s: ES.ServiceState)
    requires !ES.IsExtensionBlocked(s.policy, "exe")
    ensures var r := UploadFile(s, MultipartFile(Some("program.exe"), 7));
      && r.Uploaded?
      && r.state.store.files == s.store.files + [r.stored]
      && r.stored.extension == "exe"
  {
    var parts := ["program", "exe"];
    assert Join(parts) == "program.exe";
    assert IsPlainToken(parts[0]) && IsPlainToken(parts[1]);
    PlainNameAllowed(s.policy, parts, 7);
    StoredExtensionPlain(parts);
  }

  /** Blocking "exe" again deletes the only stored file, an unprotected ACTIVE "exe" upload. */
  lemma ExeReblocked(exe: string, s2: ES.ServiceState, stored: FS.UploadedFile)
    requires exe == "exe" && exe in s2.policy.fixed
    requires s2.store.files == [stored]
    requires stored.extension == exe && stored.status == FS.Active && !stored.deletionException
    ensures var r := ES.UpdateFixedExtensionSetting(s2, exe, true);
      && r.Success?
      && ES.IsExtensionBlocked(r.value.policy, exe)
      && r.value.store.files == []
      && FS.FilesOfExtension(r.value.store.files, exe) == []
  {
    var r := ES.UpdateFixedExtensionSetting(s2, exe, true);
    assert FS.Doomed(stored, exe);
    assert forall f :: f !in r.value.store.files;
  }

  /**
   * Fixed extension workflow: "malware.exe" is refused under the seed; once
   * "exe" is allowed, "program.exe" is stored with extension "exe"; blocking
   * "exe" again leaves no file of that extension.
   */
  lemma FixedToggleWorkflow(exe: string, s1: ES.ServiceState)
    requires exe == "exe"
    requires ES.UpdateFixedExtensionSetting(ES.SeedState, exe, false) == Success(s1)
    ensures ES.IsFileNameBlocked(ES.SeedPolicy, Some("malware.exe"))
    ensures !ES.IsExtensionBlocked(s1.policy, exe)
    ensures var u := UploadFile(s1, MultipartFile(Some("program.exe"), 7));
      && u.Uploaded?
      && u.stored.extension == exe
      && var r := ES.UpdateFixedExtensionSetting(u.state, exe, true);
         && r.Success?
         && ES.IsExtensionBlocked(r.value.policy, exe)
         && FS.FilesOfExtension(r.value.store.files, exe) == []
  {
    MalwareExeBlockedAtSeed();
    ExeToggledOff(exe, s1);
    ProgramExeStored(s1);
    var u := UploadFile(s1, MultipartFile(Some("program.exe"), 7));
    ExeReblocked(exe, u.state, u.stored);
  }

  // ---------------------------------------------------------------------------
  // Multi-extension bypass attempts
  // ---------------------------------------------------------------------------

  /** The check-only path refuses the upload of `name` (seven bytes) with a reason. */
  predicate RefusedOnCheck(p: ES.Policy, name: string) {
    var r := ValidateFile(p, MultipartFile(Some(name), 7));
    r.Success? && r.value.IsBlocked() && r.value.GetReason().Some?
  }

  /** A plain-segment name with a blocked candidate anywhere after the first segment is refused on the check-only path. */
  lemma PlainNameRefusedOnCheck(p: ES.Policy, parts: seq<string>, ext: string)
    requires |parts| >= 2
    requires forall k :: 0 <= k < |parts| ==> IsPlainToken(parts[k])
    requires ext in parts[1..] && IsCandidate(ext) && ES.IsExtensionBlocked(p, ext)
    ensures RefusedOnCheck(p, Join(parts))
  {
    var name := Join(parts);
    assert name != "" by {
      JoinNonEmpty(parts);
    }
    assert ES.IsFileNameBlocked(p, Some(name)) by {
      PlainNameBlocked(p, parts, ext);
    }
    BlockedNameRefused(p, name);
  }

  /** A non-empty name that the file-name check blocks is refused on the check-only path. */
  lemma BlockedNameRefused(p: ES.Policy, name: string)
    requires name != "" && ES.IsFileNameBlocked(p, Some(name))
    ensures RefusedOnCheck(p, name)
  {
    ValidateAgreesWithNameCheck(p, MultipartFile(Some(name), 7));
  }

  /** After "virus" is added to the seed, both "virus" and "exe" are blocked. */
  lemma VirusAdded(virus: string, s1: ES.ServiceState, e: ES.CustomExtension)
    requires virus == "virus"
    requires ES.AddCustomExtension(ES.SeedState, virus) == Success((s1, e))
    ensures ES.IsExtensionBlocked(s1.policy, virus) && ES.IsExtensionBlocked(s1.policy, "exe")
  {
    assert IsPlainToken(virus);
    ES.SeedFixedShort(virus);
    AddToSeed(virus);
  }

  /** "document.pdf.exe": the blocked token is the last of three segments. */
  lemma DocumentPdfExeRefused(p: ES.Policy)
    requires ES.IsExtensionBlocked(p, "exe")
    ensures RefusedOnCheck(p, "document.pdf.exe")
  {
    var parts := ["document", "pdf", "exe"];
    assert Join(parts) == "document.pdf.exe";
    assert IsPlainToken(parts[0]) && IsPlainToken(parts[1]) && IsPlainToken(parts[2]);
    assert parts[1..][1] == "exe";
    LetterLedIsCandidate("exe");
    PlainNameRefusedOnCheck(p, parts, "exe");
  }

  /** "image.jpg.virus": a custom token as the last segment. */
  lemma ImageJpgVirusRefused(p: ES.Policy)
    requires ES.IsExtensionBlocked(p, "virus")
    ensures RefusedOnCheck(p, "image.jpg.virus")
  {
    var parts := ["image", "jpg", "virus"];
    assert Join(parts) == "image.jpg.virus";
    assert IsPlainToken(parts[0]) && IsPlainToken(parts[1]) && IsPlainToken(parts[2]);
    assert parts[1..][1] == "virus";
    LetterLedIsCandidate("virus");
    PlainNameRefusedOnCheck(p, parts, "virus");
  }

  /** "backup.2024.exe.txt": the blocked token sits behind a numeric segment and before the last one. */
  lemma BackupExeTxtRefused(p: ES.Policy)
    requires ES.IsExtensionBlocked(p, "exe")
    ensures RefusedOnCheck(p, "backup.2024.exe.txt")
  {
    var parts := ["backup", "2024", "exe", "txt"];
    assert Join(parts) == "backup.2024.exe.txt";
    assert IsPlainToken(parts[0]) && IsPlainToken(parts[1]) && IsPlainToken(parts[2]) && IsPlainToken(parts[3]);
    assert parts[1..][1] == "exe";
    LetterLedIsCandidate("exe");
    PlainNameRefusedOnCheck(p, parts, "exe");
  }

  /** "file.exe.pdf.txt": the blocked token is the first of a chain of three. */
  lemma FileExeChainRefused(p: ES.Policy)
    requires ES.IsExtensionBlocked(p, "exe")
    ensures RefusedOnCheck(p, "file.exe.pdf.txt")
  {
    var parts := ["file", "exe", "pdf", "txt"];
    assert Join(parts) == "file.exe.pdf.txt";
    assert IsPlainToken(parts[0]) && IsPlainToken(parts[1]) && IsPlainToken(parts[2]) && IsPlainToken(parts[3]);
    assert parts[1..][0] == "exe";
    LetterLedIsCandidate("exe");
    PlainNameRefusedOnCheck(p, parts, "exe");
  }

  /**
   * Bypass attempts after "virus" is added: a blocked token hidden before the
   * last segment, behind a numeric segment or in the middle of a chain is
   * still found.
   */
  lemma BypassAttemptsRefused(virus: string, s1: ES.ServiceState, e: ES.CustomExtension)
    requires virus == "virus"
    requires ES.AddCustomExtension(ES.SeedState, virus) == Success((s1, e))
    ensures RefusedOnCheck(s1.policy, "document.pdf.exe")
    ensures RefusedOnCheck(s1.policy, "image.jpg.virus")
    ensures RefusedOnCheck(s1.policy, "backup.2024.exe.txt")
    ensures RefusedOnCheck(s1.policy, "file.exe.pdf.txt")
  {
    VirusAdded(virus, s1, e);
    DocumentPdfExeRefused(s1.policy);
    ImageJpgVirusRefused(s1.policy);
    BackupExeTxtRefused(s1.policy);
    FileExeChainRefused(s1.policy);
  }

  // ---------------------------------------------------------------------------
  // Deletion protection workflow
  // ---------------------------------------------------------------------------

  /** "txt" is not a fixed extension. */
  lemma SeedFixedTxt()
    ensures "txt" !in ES.SeedFixed
  {
  }

  /** A name `base.ext` of two plain segments whose extension the policy allows is stored, recorded as `ext`. */
  lemma PlainUploadStored(s: ES.ServiceState, name: string, base: string, ext: string, size: nat)
    requires name == base + "." + ext && IsPlainToken(base) && IsPlainToken(ext)
    requires 0 < size <= MAX_FILE_SIZE_BYTES
    requires !ES.IsExtensionBlocked(s.policy, ext)
    ensures var u := UploadFile(s, MultipartFile(Some(name), size));
      u.Uploaded? && u.stored.extension == ext
  {
    var parts := [base, ext];
    assert Join(parts) == base + "." + ext by {
      assert Join(parts[1..]) == ext;
    }
    assert parts[1..] == [ext];
    PlainNameAllowed(s.policy, parts, size);
    TwoPartStoredExtension(base, ext);
  }

  /** "document1.txt" uploaded to the seed is stored as its only file, recorded as "txt". */
  lemma Document1Stored(n1: string)
    requires n1 == "document1.txt"
    ensures var u := UploadFile(ES.SeedState, MultipartFile(Some(n1), 8));
      && u.Uploaded? && u.stored.extension == "txt"
      && u.state.policy == ES.SeedPolicy && u.state.store.files == [u.stored]
      && u.stored.status == FS.Active && FS.Valid(u.state.store)
  {
    var base, ext := "document1", "txt";
    assert n1 == base + "." + ext && IsPlainToken(base) && IsPlainToken(ext);
    assert !ES.IsExtensionBlocked(ES.SeedPolicy, ext) by {
      SeedBlocksOnlyExe();
    }
    PlainUploadStored(ES.SeedState, n1, base, ext, 8);
  }

  /** "document2.pdf" uploaded under the seeded policy is appended, recorded as "pdf". */
  lemma Document2Stored(s: ES.ServiceState, n2: string)
    requires n2 == "document2.pdf" && s.policy == ES.SeedPolicy && FS.Valid(s.store)
    ensures var u := UploadFile(s, MultipartFile(Some(n2), 8));
      && u.Uploaded? && u.stored.extension == "pdf"
      && u.state.policy == ES.SeedPolicy && u.state.store.files == s.store.files + [u.stored]
      && FS.Valid(u.state.store)
  {
    var base, ext := "document2", "pdf";
    assert n2 == base + "." + ext && IsPlainToken(base) && IsPlainToken(ext);
    assert !ES.IsExtensionBlocked(ES.SeedPolicy, ext) by {
      SeedBlocksOnlyExe();
    }
    PlainUploadStored(s, n2, base, ext, 8);
  }

  /** Uploading "document1.txt" then "document2.pdf" to the seed stores both, with extensions "txt" and "pdf". */
  lemma TwoDocumentsStored(n1: string, n2: string)
    requires n1 == "document1.txt" && n2 == "document2.pdf"
    ensures var u1 := UploadFile(ES.SeedState, MultipartFile(Some(n1), 8));
      && u1.Uploaded?
      && var u2 := UploadFile(u1.state, MultipartFile(Some(n2), 8));
         && u2.Uploaded?
         && u2.state.store.files == [u1.stored, u2.stored]
         && u2.state.policy == ES.SeedPolicy
         && u1.stored.extension == "txt" && u2.stored.extension == "pdf"
         && u1.stored.status == FS.Active && FS.Valid(u2.state.store)
  {
    Document1Stored(n1);
    var u1 := UploadFile(ES.SeedState, MultipartFile(Some(n1), 8));
    Document2Stored(u1.state, n2);
  }

  /** Of two records, only the first of extension `ext`, the listing of `ext` returns just that one. */
  lemma OneOfTwoListed(f1: FS.UploadedFile, f2: FS.UploadedFile, ext: string)
    requires f1.extension == ext && f2.extension != ext
    ensures FS.FilesOfExtension([f1, f2], ext) == [f1]
  {
    assert [f1, f2][1..] == [f2];
    assert [f1, f2][1..][1..] == [];
  }

  /**
   * Protecting a stored "txt" file and then adding "txt" as a custom
   * extension keeps that file, still protected and ACTIVE.
   */
  lemma ProtectedSurvivesAdd(txt: string, s2: ES.ServiceState, f1: FS.UploadedFile)
    requires txt == "txt"
    requires s2.policy == ES.SeedPolicy && FS.Valid(s2.store)
    requires f1 in s2.store.files && f1.status == FS.Active
    ensures var r := FS.SetDeletionException(s2.store, f1.id, true);
      && r.Success?
      && var a := ES.AddCustomExtension(s2.(store := r.value), txt);
         && a.Success?
         && var g := FS.FindById(a.value.0.store.files, f1.id);
            g.Some? && g.value.deletionException && g.value.status == FS.Active
  {
    var i :| 0 <= i < |s2.store.files| && s2.store.files[i] == f1;
    var r := FS.SetDeletionException(s2.store, f1.id, true);
    var g := r.value.files[i];
    assert g.id == f1.id && g.deletionException && g.status == FS.Active;
    var s3 := s2.(store := r.value);
    assert g in s3.store.files;
    assert Normalize(txt) == txt by {
      assert IsPlainToken(txt);
      NormalizePlainToken(txt);
    }
    SeedFixedTxt();
    var a := ES.AddCustomExtension(s3, txt);
    ES.ProtectedFilesSurvive(s3, g, txt, true, txt, 0);
    FS.FindByIdFinds(a.value.0.store.files, g);
  }

  /**
   * File management workflow: two uploads are listed, one of extension "txt";
   * the first is protected, "txt" is added as a custom extension, and the
   * protected file remains ACTIVE.
   */
  lemma FileManagementWorkflow(n1: string, n2: string, txt: string)
    requires n1 == "document1.txt" && n2 == "document2.pdf" && txt == "txt"
    ensures var u1 := UploadFile(ES.SeedState, MultipartFile(Some(n1), 8));
      && u1.Uploaded?
      && var u2 := UploadFile(u1.state, MultipartFile(Some(n2), 8));
         && u2.Uploaded?
         && |u2.state.store.files| == 2
         && FS.FilesOfExtension(u2.state.store.files, txt) == [u1.stored]
         && var r := FS.SetDeletionException(u2.state.store, u1.stored.id, true);
            && r.Success?
            && var a := ES.AddCustomExtension(u2.state.(store := r.value), txt);
               && a.Success?
               && var g := FS.FindById(a.value.0.store.files, u1.stored.id);
                  g.Some? && g.value.deletionException && g.value.status == FS.Active
  {
    TwoDocumentsStored(n1, n2);
    var u1 := UploadFile(ES.SeedState, MultipartFile(Some(n1), 8));
    var u2 := UploadFile(u1.state, MultipartFile(Some(n2), 8));
    OneOfTwoListed(u1.stored, u2.stored, txt);
    ProtectedSurvivesAdd(txt, u2.state, u1.stored);
  }

  /** Re-adding a plain token that is already a custom entry fails with AlreadyExists. */
  lemma DuplicateRefused(s: ES.ServiceState, token: string)
    requires IsPlainToken(token) && token in ES.CustomSet(s.policy.custom)
    ensures ES.AddCustomExtension(s, token) == Failure(ES.AlreadyExists)
  {
    NormalizePlainToken(token);
  }

  /** Adding a plain token that is a fixed extension fails with Conflict. */
  lemma FixedTokenRefused(s: ES.ServiceState, token: string)
    requires IsPlainToken(token) && token in s.policy.fixed && token !in ES.CustomSet(s.policy.custom)
    ensures ES.AddCustomExtension(s, token) == Failure(ES.Conflict)
  {
    NormalizePlainToken(token);
  }

  /** Adding the same token twice fails the second time, and a fixed token cannot be added as custom. */
  lemma DuplicateAndFixedCollision(malware: string, exe: string)
    requires malware == "malware" && exe == "exe"
    ensures var r1 := ES.AddCustomExtension(ES.SeedState, malware);
      && r1.Success?
      && ES.AddCustomExtension(r1.value.0, malware) == Failure(ES.AlreadyExists)
      && ES.AddCustomExtension(r1.value.0, exe) == Failure(ES.Conflict)
  {
    assert IsPlainToken(malware);
    ES.SeedFixedShort(malware);
    AddToSeed(malware);
    var s1 := ES.AddCustomExtension(ES.SeedState, malware).value.0;
    assert ES.CustomSet(s1.policy.custom) == {malware} by {
      assert s1.policy.custom[0].extension == malware;
    }
    DuplicateRefused(s1, malware);
    assert IsPlainToken(exe);
    ES.SeedFixedExe();
    FixedTokenRefused(s1, exe);
  }

  /** A repeated add of "test" leaves exactly one record of it. */
  lemma RepeatedAddKeepsOneRecord()
    ensures var r1 := ES.AddCustomExtension(ES.SeedState, "test");
      && r1.Success?
      && ES.AddCustomExtension(r1.value.0, "test") == Failure(ES.AlreadyExists)
      && ES.CountOf(r1.value.0.policy.custom, "test") == 1
  {
    var test := "test";
    assert IsPlainToken(test);
    ES.SeedFixedShort(test);
    AddToSeed(test);
    ES.SeedIsValid();
    ES.AddCreatesOneRecord(ES.SeedState, test);
  }

  /** A 101 MiB upload is refused as too large, both on upload and on the check-only path. */
  lemma OversizedUploadRefused(s: ES.ServiceState)
    ensures var file := MultipartFile(Some("large.txt"), 101 * 1024 * 1024);
      && ValidateFile(s.policy, file) == Failure(FileTooLarge)
      && UploadFile(s, file) == BadRequest(FileTooLarge)
  {
  }
}

=== FILE: validation_cases.dfy ===
/**
 * The upload check on the concrete names of the validation cases.  Each
 * policy is left open except for the token decisions the case fixes.
 * Uploads carry seven bytes of content.
 */
module ValidationCases {
  import opened Wrappers
  import opened ExtensionNames
  import opened FileValidationService
  import ES = ExtensionService

  /** "document.pdf" is allowed, without a reason, whenever "pdf" is not blocked. */
  lemma DocumentPdfAllowed(p: ES.Policy)
    requires !ES.IsExtensionBlocked(p, "pdf")
    ensures var r := ValidateFile(p, MultipartFile(Some("document.pdf"), 7));
      r == Success(Allowed) && r.value.GetReason() == None
  {
    var parts := ["document", "pdf"];
    assert Join(parts) == "document.pdf";
    assert IsPlainToken(parts[0]) && IsPlainToken(parts[1]);
    PlainNameAllowed(p, parts, 7);
  }

  /** "malware.exe" is blocked, naming "exe" in the reason, whenever "exe" is blocked. */
  lemma MalwareExeVerdict(p: ES.Policy)
    requires ES.IsExtensionBlocked(p, "exe")
    ensures var r := ValidateFile(p, MultipartFile(Some("malware.exe"), 7));
      && r.Success?
      && r.value.IsBlocked()
      && r.value.blockedExtension == "exe"
      && r.value.GetBlockReason() == Some(BlockedExtension)
      && Contains(r.value.reason, "exe")
  {
    var parts := ["malware", "exe"];
    assert Join(parts) == "malware.exe";
    assert IsPlainToken(parts[0]) && IsPlainToken(parts[1]);
    assert parts[1..] == ["exe"];
    LetterLedIsCandidate("exe");
    PlainNameVerdict(p, parts, "exe", 7);
  }

  /**
   * "document.backup.exe.txt" is blocked on "exe" when "exe" is blocked and
   * "backup" and "txt" are not: the last segment being allowed does not let
   * the name through.
   */
  lemma BackupChainVerdict(p: ES.Policy)
    requires ES.IsExtensionBlocked(p, "exe")
    requires !ES.IsExtensionBlocked(p, "backup") && !ES.IsExtensionBlocked(p, "txt")
    ensures var r := ValidateFile(p, MultipartFile(Some("document.backup.exe.txt"), 7));
      && r.Success?
      && r.value.IsBlocked()
      && r.value.blockedExtension == "exe"
      && r.value.GetBlockReason() == Some(BlockedExtension)
      && Contains(r.value.reason, "exe")
  {
    var parts := ["document", "backup", "exe", "txt"];
    assert Join(parts) == "document.backup.exe.txt";
    assert forall k :: 0 <= k < |parts| ==> IsPlainToken(parts[k]) by {
      assert IsPlainToken(parts[0]) && IsPlainToken(parts[1]) && IsPlainToken(parts[2]) && IsPlainToken(parts[3]);
    }
    assert "exe" in parts[1..] && IsCandidate("exe") by {
      assert parts[1..][1] == "exe";
      LetterLedIsCandidate("exe");
    }
    assert forall t :: t in parts[1..] && ES.IsExtensionBlocked(p, t) ==> t == "exe" by {
      assert parts[1..] == ["backup", "exe", "txt"];
    }
    PlainNameVerdict(p, parts, "exe", 7);
  }

  /** "backup.2024.txt" is allowed whenever "txt" is not blocked: the all-digit segment is not checked. */
  lemma NumericSegmentIgnored(p: ES.Policy)
    requires !ES.IsExtensionBlocked(p, "txt")
    ensures ValidateFile(p, MultipartFile(Some("backup.2024.txt"), 7)) == Success(Allowed)
  {
    var parts := ["backup", "2024", "txt"];
    assert Join(parts) == "backup.2024.txt";
    assert IsPlainToken(parts[0]) && IsPlainToken(parts[1]) && IsPlainToken(parts[2]);
    assert parts[1..] == ["2024", "txt"];
    assert IsNumeric("2024");
    PlainNameAllowed(p, parts, 7);
  }

  /** "README", without a dot, is allowed whatever the policy. */
  lemma ReadmeAllowed(p: ES.Policy)
    ensures ValidateFile(p, MultipartFile(Some("README"), 7)) == Success(Allowed)
  {
    NoExtensionIsAllowed(p, "README", 7);
  }

  /** A long chain of segments is allowed when nothing is blocked. */
  lemma ComplexNameAllowed()
    ensures ValidateFile(ES.EmptyPolicy, MultipartFile(Some("my.project.v1.final.doc.backup.pdf"), 7)) == Success(Allowed)
  {
    ES.EmptyPolicyBlocksNothing(Some("my.project.v1.final.doc.backup.pdf"));
  }
}

=== FILE: wrappers.dfy ===
/** Failure-compatible result types shared by every service of the model. */
module Wrappers {

  /** A value that may be absent; `None` plays the role of Java's `null`. */
  datatype Option<+T> = None | Some(value: T)

  /** The outcome of an operation that either succeeds with a value or fails with an error. */
  datatype Result<+R, +E> = Success(value: R) | Failure(error: E) {
    predicate IsFailure() {
      Failure?
    }

    function PropagateFailure<U>(): Result<U, E>
      requires Failure?
    {
      Failure(error)
    }

    function Extract(): R
      requires Success?
    {
      value
    }
  }
}
